=== FILE: README.md ===
# tcp-hashcash in Dafny

A model of the proof-of-work handshake of `tcp-hashcash`. The server (the
*receiver*) issues a Hashcash challenge bound to the client's address. The
client (the *sender*) searches for a counter whose SHA-1 digest has the
challenge's number of leading zero bits and sends the solved record back. The
receiver checks the proof of work, the age of the record, the address, that
the address was registered, and that the digest was never spent before.

Modules, one file each:

- `Outcomes` (`outcomes.dfy`): `Option`, `Result`, `Outcome` and one `Error`
  value per failure the Go code can return.
- `Text` (`text.dfy`): Go's `strings.Split` and its inverse `Join`;
  `ReadLine`, a line reader with the behaviour of
  `bufio.Reader.ReadString('\n')`.
- `Decimal` (`decimal.dfy`): `%d` formatting and
  `strconv.ParseInt(s, 10, 64)`.
- `Calendar` (`calendar.dfy`): the `060102` date layout. It formats and
  parses in UTC on the proleptic Gregorian calendar, with Go's pivot of 69 for
  two-digit years.
- `Base64` (`base64.dfy`): standard base64 (section 4 of RFC 4648) as Go's
  `StdEncoding` does it. Padding is required, and '\r' and '\n' are skipped
  when decoding.
- `Bits` (`bits.dfy`): `IsLeadingBitsZero` on a digest, step by step as Go
  does it, proved against a plain bit-level reading.
- `Protocol` (`protocol.dfy`): the `HashCash` record and its
  `ver:bits:YYMMDD:ip::rand:counter` wire form. The nonce is in base64; the
  counter is formatted in decimal and then base64-encoded.
- `Receiver` (`receiver.dfy`): the two repositories as sets, then
  `ChooseChallenge`, `VerifyChallenge` and `Auth`.
- `Sender` (`sender.dfy`): the bounded counter search and `GetQuote`.
- `Session` (`session.dfy`): the two sides run against each other. It covers
  an honest exchange and a replay.

The environment is made of parameters:

- the clock readings, as nanoseconds;
- the ttl;
- the nonce;
- SHA-1, as a function from the wire text to 20 bytes;
- a record of which repository call or write fails.

Streams are strings. A session takes the whole input as one string and
returns what it wrote.

Behaviours of the code a reader might not expect:

- The digest checked for reuse is taken over the record's re-encoding:
  `SHA1Hash` calls `ToBytes` on the decoded record. An answer with a
  non-empty extension field, or with numbers written as `+5` or `007`,
  decodes to the same record and so has the same digest as the canonical
  text (`Protocol.ExtensionIgnored`, `Decimal.PlusSign`, `Decimal.ZeroPadding`).
- The date field holds only the day, so the ttl runs from UTC midnight of
  the issue day, not from the issue instant. `Session.ExpiryFromDayStart`
  states this.
- A record with a difficulty of zero passes the proof-of-work check, and so
  does one with a negative difficulty.
- The year field of the date is read by Go's `time.Parse`, which accepts a
  sign followed by one digit there: "+5" is 2005 and "-9" is 1991.
- Registration is looked up for the record's address once it has been
  checked equal to the connection's address.

## Model

| member | source | states |
|---|---|---|
| Text.Split | internal/pkg/protocol/protocol.go:23 | `strings.Split`: at least one part, and no part contains the separator |
| Text.Join | internal/pkg/protocol/protocol.go:66-67 | the fields joined with ':' between neighbours: the text starts with the first part and has the separator right after it when there are several; `SplitJoin` and `JoinSplit` make it the inverse of `Split` |
| Text.SplitJoin | internal/pkg/protocol/protocol.go:23 | splitting the join of separator-free parts gives back exactly those parts |
| Text.JoinSplit | internal/pkg/protocol/protocol.go:23 | joining the parts of a split gives back the string |
| Text.ReadLine | internal/services/receiver/receiver.go:49 | `ReadString('\n')`: the line is the stream up to and including its first '\n', and line plus rest is the stream; no '\n' at all is a read error |
| Text.ReadLineOf | internal/services/receiver/receiver.go:66 | a newline-free line followed by '\n' is read back exactly, whatever follows it |
| Decimal.Format | internal/pkg/protocol/protocol.go:67-69 | `%d`: digits only, with a leading '-' exactly when the number is negative |
| Decimal.ParseInt | internal/pkg/protocol/protocol.go:28-36 | `ParseInt(s, 10, 64)` accepts only an optional sign followed by digits, and only values in the signed 64-bit range; a '-' gives a value of zero or less |
| Decimal.ParseFormat | internal/pkg/protocol/protocol.go:28-36 | every 64-bit integer, negative ones included, parses back from its `%d` text |
| Decimal.FormatParse | internal/pkg/protocol/protocol.go:28-29 | parsed text is reproduced by formatting exactly when it is canonical: no '+', no leading zero, no "-0" |
| Decimal.FormatCanonical | internal/pkg/protocol/protocol.go:67-69 | what `%d` writes is canonical |
| Decimal.PlusSign | internal/pkg/protocol/protocol.go:28-29 | a '+' in front of digits parses to the same value as the digits alone |
| Decimal.ZeroPadding | internal/pkg/protocol/protocol.go:28-29 | a leading zero in front of digits parses to the same value as the digits alone |
| Calendar.DayStart | internal/pkg/protocol/protocol.go:58 | the start of the day holding an instant: at or before it, less than a day before it, and a multiple of a day |
| Calendar.DateOfDay | internal/pkg/protocol/protocol.go:70 | the calendar date of a day number is a valid date with that day number |
| Calendar.DateOfDayNumber | internal/pkg/protocol/protocol.go:70 | every valid date is recovered from its day number |
| Calendar.DayNumberInjective | internal/pkg/protocol/protocol.go:70 | distinct valid dates have distinct day numbers |
| Calendar.CenturyPivot | internal/pkg/protocol/protocol.go:38 | a year field from -9 to 99 names a year from 1969 to 2068, with those last two digits when the field is not negative |
| Calendar.YearField | internal/pkg/protocol/protocol.go:38 | the year field is two digits, or a sign followed by one digit, and reads as a value from -9 to 99 |
| Calendar.FormatDate | internal/pkg/protocol/protocol.go:70 | the date field is exactly six digits |
| Calendar.FormatDateDigits | internal/pkg/protocol/protocol.go:70 | for every instant the three fields read back as the last two digits of the year's absolute value, the month and the day |
| Calendar.FormatDayStart | internal/pkg/protocol/protocol.go:70 | the start of a day is written the same as every instant in that day |
| Calendar.NegativeYearDate | internal/pkg/protocol/protocol.go:70 | the last second of the year -1 falls on December 31 of that year and is written "011231", without the year's sign |
| Calendar.DaysBeforeYearClosed | internal/pkg/protocol/protocol.go:70 | the days before a year are 365 per year from 1970 plus one per leap year in between, in both directions from 1970 |
| Calendar.ParseDate | internal/pkg/protocol/protocol.go:38-41 | only six characters parse: a year field, then a two-digit month and a two-digit day; the result is the start of a day |
| Calendar.ParseFormatDate | internal/pkg/protocol/protocol.go:38-41 | for an instant whose year the field can name, the formatted date parses back to the start of its day |
| Calendar.FormatParseDate | internal/pkg/protocol/protocol.go:38-41 | anything that parses lies in the two-digit-year window and parses to the same instant after formatting; all-digit text is exactly what formatting writes |
| Calendar.ParsedDate | internal/pkg/protocol/protocol.go:38-41 | parsed text names a valid date in the window, with the month and the day as written |
| Calendar.SignedYear | internal/pkg/protocol/protocol.go:38-41 | a year field "+d" means the same as "0d", and "-d" means the year 2000 - d |
| Base64.CharSextet | internal/pkg/protocol/protocol.go:45 | the decoder's alphabet lookup inverts the encoder's alphabet |
| Base64.CharOfSextet | internal/pkg/protocol/protocol.go:72 | each of the 64 characters the encoder writes decodes to its sextet |
| Base64.Join4Split3 | internal/pkg/protocol/protocol.go:72 | regrouping four sextets gives back the three bytes they were cut from |
| Base64.StripLineBreaks | internal/pkg/protocol/protocol.go:45 | no line break remains, and the result is no longer than the input |
| Base64.StripSingle | internal/pkg/protocol/protocol.go:45 | a single character is dropped exactly when it is '\r' or '\n' |
| Base64.StripAppend | internal/pkg/protocol/protocol.go:45 | stripping distributes over concatenation, so with `StripSingle` every other character is kept, in order |
| Base64.DecodeQuantum | internal/pkg/protocol/protocol.go:45 | a four-character quantum yields one to three bytes, and fewer than three only in the last quantum |
| Base64.Decode | internal/pkg/protocol/protocol.go:45-48 | `DecodeString` succeeds only when the text without line breaks is a whole number of quanta |
| Base64.Encode | internal/pkg/protocol/protocol.go:72 | `EncodeToString` writes four characters for each started group of three bytes; `DecodeEncode` makes decoding its inverse |
| Base64.DecodeEncode | internal/pkg/protocol/protocol.go:45 | decoding the encoding of any byte string gives it back |
| Base64.DecodeQuantaEncode | internal/pkg/protocol/protocol.go:72 | the quantum-by-quantum decoder inverts the encoder, by induction on the bytes |
| Base64.QuantumOfThree | internal/pkg/protocol/protocol.go:72 | a full group of three bytes in front of decodable text decodes to those bytes followed by the text's bytes |
| Base64.DecodeIgnoresNewline | internal/pkg/protocol/protocol.go:45 | a trailing '\n' does not change what the decoder returns |
| Base64.EncodeAlphabet | internal/pkg/protocol/protocol.go:72 | encoded text is made of alphabet characters and '=' only |
| Base64.EncodeFree | internal/pkg/protocol/protocol.go:72 | encoded text contains no ':' and no line break |
| Bits.GoQuo | internal/pkg/protocol/protocol.go:101 | Go's `/` agrees with floor division for a non-negative dividend and is never positive for a non-positive one |
| Bits.GoRem | internal/pkg/protocol/protocol.go:102 | Go's `%` agrees with the modulus for a non-negative dividend and is never positive for a non-positive one |
| Bits.WholeBytesZero | internal/pkg/protocol/protocol.go:105-109 | the whole-byte loop panics only when it would run past the data, returns true only when every byte it covers is zero, and false only at a nonzero byte |
| Bits.IsLeadingBitsZero | internal/pkg/protocol/protocol.go:97-126 | a difficulty of zero or less passes, and a panic needs a difficulty beyond the data's bits; `IsLeadingBitsZeroCorrect` and `BeyondDigest` give its value everywhere |
| Bits.WholeBytesZeroMeaning | internal/pkg/protocol/protocol.go:105-109 | the whole-byte loop returns false if a byte in range is nonzero, panics if it would run off the digest, and returns true otherwise |
| Bits.MaskTest | internal/pkg/protocol/protocol.go:118-122 | the mask `0xFF << (8 - r)` tests exactly the top `r` bits of a byte |
| Bits.FirstBitsByBytes | internal/pkg/protocol/protocol.go:100-123 | the first `k` bits are zero exactly when the first `k / 8` bytes are zero and so are the top `k % 8` bits of the next byte |
| Bits.IsLeadingBitsZeroCorrect | internal/pkg/protocol/protocol.go:97-126 | on a difficulty that fits in the digest, the Go test never panics and says whether the first `k` bits are zero; a difficulty of zero or less always passes |
| Bits.Monotonic | internal/pkg/protocol/protocol.go:97-126 | a digest that meets a difficulty meets every smaller one |
| Bits.ExactDifficulty | internal/pkg/protocol/protocol.go:97-126 | a digest with exactly `k` leading zero bits meets every difficulty up to `k` and fails `k + 1` |
| Bits.BeyondDigest | internal/pkg/protocol/protocol.go:105-107 | a difficulty beyond the digest gives false at the first nonzero byte and a panic only for an all-zero digest |
| Protocol.DecimalBytes | internal/pkg/protocol/protocol.go:73 | `[]byte` of decimal text read back as characters gives the text |
| Protocol.EncodeCounter | internal/pkg/protocol/protocol.go:73 | the counter field, `%d` then base64, decodes back to the counter for every 64-bit value |
| Protocol.DecodeCounter | internal/pkg/protocol/protocol.go:86-93 | `decodeBase64Int64` only yields 64-bit values |
| Protocol.CounterLine | internal/pkg/protocol/protocol.go:50-53 | the counter field still decodes with the line's '\n' after it |
| Protocol.Fields | internal/pkg/protocol/protocol.go:66-74 | `ToBytes` writes seven fields |
| Protocol.ToBytes | internal/pkg/protocol/protocol.go:65-75 | with an address free of ':', the wire text splits back into exactly the seven fields |
| Protocol.Sha1Hash | internal/pkg/protocol/protocol.go:76-84 | SHA-1 of the record's own wire text, not of the text received; `DigestSurvivesWire` relates the two sides |
| Protocol.DigestSurvivesWire | internal/pkg/protocol/protocol.go:76-84 | the record the receiver decodes from an encodable record's text has the same digest as the record that was sent |
| Protocol.IsLeadingBitsZero | internal/pkg/protocol/protocol.go:97-126 | the proof-of-work test on the record's digest with the record's own difficulty; `ProofOfWork` states its result |
| Protocol.ProofOfWork | internal/pkg/protocol/protocol.go:97-126 | up to 160 bits the test says whether the digest's first bits are zero; beyond that it says false, or panics when the digest is all zero |
| Protocol.FromBytes | internal/pkg/protocol/protocol.go:21-63 | anything other than seven ':'-separated parts is `BadFieldCount`, and seven parts decode as `FromFields` does them; a decoded record has the fourth part as its address, 64-bit numbers, and a date at the start of a day in the two-digit-year window |
| Protocol.FromFields | internal/pkg/protocol/protocol.go:28-62 | decoding succeeds exactly when the version, the difficulty, the date, the nonce and the counter all parse, and each field of the record is that part's parsed value. Otherwise the error is that of the first part that fails, in that order |
| Protocol.FieldsFree | internal/pkg/protocol/protocol.go:65-75 | no field contains ':' when the address does not |
| Protocol.ToBytesOneLine | internal/pkg/protocol/protocol.go:65-75 | the wire text has no '\n' when the address has none |
| Protocol.FromBytesToBytes | internal/pkg/protocol/protocol.go:21-75 | decoding an encodable record's wire text gives back every field, with the date cut to the start of its day |
| Protocol.FromBytesToBytesLine | internal/pkg/protocol/protocol.go:21-75 | the same round trip holds for the line as read from the stream, with its trailing '\n' |
| Protocol.SplitLine | internal/pkg/protocol/protocol.go:23 | the line's trailing '\n' ends up in the seventh part |
| Protocol.JoinAppendLast | internal/pkg/protocol/protocol.go:23 | text appended to a joined list lands in its last part |
| Protocol.ColonAddressBreaksDecoding | internal/pkg/protocol/protocol.go:23-26 | a record whose address contains ':', such as an IPv6 address, fails its own round trip with `BadFieldCount` |
| Protocol.JoinCount | internal/pkg/protocol/protocol.go:66-67 | a joined list holds at least one separator per neighbouring pair plus those inside any single part |
| Protocol.SplitCount | internal/pkg/protocol/protocol.go:23 | a string splits into one more part than it has separators |
| Protocol.ExtensionIgnored | internal/pkg/protocol/protocol.go:43-50 | replacing the fifth part by any text without ':' leaves the result of `FromBytes` unchanged |
| Protocol.FieldsIgnoreExtension | internal/pkg/protocol/protocol.go:28-62 | the parse chain does not depend on the fifth part |
| Receiver.InsertIp | internal/repositories/ips/postgres/repository.go:39-43 | registration fails only on a store fault, and then changes nothing; otherwise the address is in the set; spent digests are untouched |
| Receiver.InsertIpIdempotent | internal/repositories/ips/postgres/repository.go:13-15 | registering an address twice is the same as registering it once |
| Receiver.HasIp | internal/repositories/ips/postgres/repository.go:28-37 | the lookup errs exactly on a store fault and otherwise reports membership |
| Receiver.InsertHash | internal/repositories/hashes/postgres/repository.go:28-40 | true exactly for a digest not yet present; afterwards the digest is present unless the call erred; the set grows by that digest only on a fresh insert |
| Receiver.Challenge | internal/services/receiver/receiver.go:84-91 | the issued record's date is the Unix second holding `now`, rounded down |
| Receiver.ChooseChallenge | internal/services/receiver/receiver.go:79-92 | a challenge is issued exactly when registration succeeds. It is version 1, with the configured difficulty, counter 0, the address, the nonce, and the issue second holding `now`. A failed registration leaves the store as it was |
| Receiver.VerifyChallenge | internal/services/receiver/receiver.go:95-131 | acceptance exactly when all five checks pass. On failure, the error is that of the first failing check, in the order proof of work, expiry, address, registration, digest insertion. Only acceptance adds the digest, and the registered addresses never change |
| Receiver.ReplayRejected | internal/services/receiver/receiver.go:121-128 | a record accepted once fails on any later verification against the resulting store, and fails as reused when it is not expired and no repository call fails |
| Receiver.IsExpired | internal/services/receiver/receiver.go:104-106 | a record is expired when more than the ttl has passed since its date; `ExpiryBoundary` and `FutureDateNotExpired` pin the edge |
| Receiver.ExpiryBoundary | internal/services/receiver/receiver.go:104-106 | an age of exactly the ttl is not expired; one nanosecond more is |
| Receiver.FutureDateNotExpired | internal/services/receiver/receiver.go:104-106 | a record dated after `now` is never expired when the ttl is not negative |
| Receiver.ClientChoosesDifficulty | internal/services/receiver/receiver.go:100-102 | verification ignores the configured difficulty, and a record claiming difficulty zero or less passes the proof-of-work check with any digest |
| Receiver.Auth | internal/services/receiver/receiver.go:40-77 | the output is nothing or the challenge line. Input with no '\n' fails with a read error and no change. After the first line, a failed registration ends the session with a store error and no change, and a failed challenge write with a write error after the address was registered, both writing nothing. The store gains at most the address, and a digest only on acceptance. With registration and the write succeeding and a decodable second line, the verdict is that of `VerifyChallenge` on the decoded record against the store with the address registered. Acceptance means that record meets its own difficulty, is not expired, names the address, and its fresh digest is the one spent |
| Receiver.Respond | internal/services/receiver/receiver.go:54-76 | after the greeting, nothing is written exactly when registration or the write fails: a failed registration is a store error with the store unchanged, and a failed write a write error with the address registered; otherwise the output is the challenge line, and a decodable answer line gets `VerifyChallenge`'s verdict against the store with the address registered. Acceptance means the answer was accepted against that store |
| Receiver.CheckAnswer | internal/services/receiver/receiver.go:65-76 | a missing answer line is a read error and an undecodable one is the decoder's error, both with the store unchanged. A decodable answer gets exactly `VerifyChallenge`'s verdict and store. Acceptance means the record meets its own difficulty, is not expired, names the registered address, and had a fresh digest, which is the only change to the store |
| Receiver.AuthIgnoresGreeting | internal/services/receiver/receiver.go:48-52 | two sessions that differ only in the content of the first line behave identically |
| Receiver.AuthFailsBeforeVerify | internal/services/receiver/receiver.go:65-74 | a missing or undecodable answer ends the session with that error, after the address was registered and the challenge written, and with no digest spent |
| Sender.SearchFrom | internal/services/sender/sender.go:59-69 | a found record differs from the challenge only in its counter, which lies within the bound, meets the record's own difficulty, and is the first counter that does. Running out means every counter up to the bound fails. A panic needs a difficulty beyond 160 bits |
| Sender.PanicOnlyBeyondDigest | internal/pkg/protocol/protocol.go:105-122 | the proof-of-work test can panic only when the difficulty exceeds the 160 bits of a SHA-1 digest |
| Sender.Search | internal/services/sender/sender.go:59-69 | a record the search returns passes the receiver's proof-of-work test |
| Sender.Solve | internal/services/sender/sender.go:59-69 | the Go loop, which increments the counter in place, computes the same result as the search |
| Sender.GetQuote | internal/services/sender/sender.go:35-80 | a failed greeting writes nothing. Otherwise the output starts with "hi\n", and a missing challenge line ends the exchange with a read error right after the greeting |
| Sender.Answer | internal/services/sender/sender.go:53-80 | nothing is written unless the challenge decodes and is solved and the write succeeds, and then exactly the solved record's line. A returned quote is the line that follows |
| Sender.SolvedExchange | internal/services/sender/sender.go:35-80 | with a decodable, solvable challenge line and a quote line after it, the sender writes the greeting and the solved line and returns the quote line |
| Sender.DecodeFailureStops | internal/services/sender/sender.go:53-56 | an undecodable challenge ends the exchange with the decoder's error, having written only the greeting |
| Sender.DifficultyFromChallenge | internal/services/sender/sender.go:17-21 | the sender's own difficulty setting never affects the exchange; only the counter bound does |
| Session.ChallengeDecodes | internal/services/receiver/receiver.go:60-63 | the sender reads the receiver's challenge line back as the issued record, day-truncated |
| Session.GreetingLine | internal/services/sender/sender.go:14 | the receiver's first read takes exactly the greeting |
| Session.AnswerDecodes | internal/services/sender/sender.go:73-76 | the solution line, behind the greeting, is read and decoded back as the solved record |
| Session.SolutionEncodable | internal/services/sender/sender.go:59-69 | the solution keeps the address, stays encodable, and is dated at the start of a day |
| Session.ExpiryFromDayStart | internal/services/receiver/receiver.go:104-106 | a record is already up to a day old when issued; with a ttl shorter than the time since midnight, even an immediate answer is expired |
| Session.ClientSolves | internal/services/sender/sender.go:35-80 | on an honest challenge line followed by a quote line, the sender writes the greeting and its solution and returns the quote line |
| Session.ServerAccepts | internal/services/receiver/receiver.go:40-77 | the receiver accepts an honest solution, registers the address and spends exactly the solution's digest |
| Session.HonestExchange | internal/services/receiver/receiver.go:40-77 | the two sides run against each other: the sender solves the challenge it was sent, the receiver accepts and spends the digest, and the sender returns the next line |
| Session.ReplayedExchange | internal/services/receiver/receiver.go:121-128 | the same solution sent in a later session, still within the ttl, against the store the accepting session left, is refused as reused and changes nothing |

## Left out

- SHA-1 itself: digests come from a function parameter mapping the wire text to 20 bytes. FIPS 180-4 is not modelled.
- The TCP server, the command-line programs, the configuration loader, the SQL schema and the database connection pool. The repositories are modelled as two sets, with failures as a parameter.
- Contexts, cancellation, logging, the error message texts and the unit tests of the receiver.
- Concurrency: the repositories' atomicity across connections is not modelled. Each session runs alone against a store value.
- Time zones: dates are formatted and parsed in UTC only.
- Receiver.VerifyChallenge: a Go panic in the proof-of-work test becomes the failure `DigestIndexOutOfRange` of one session. In Go, `Auth` runs in a goroutine without `recover` (internal/server/server.go:66-68 and 84), so that panic ends the whole server process. It needs a difficulty above 160 bits and an all-zero digest.
- Calendar.FormatParseDate: a date whose year field is written with a sign ("+5", "-9") parses, but formatting writes the two-digit form, so such text is not reproduced; `Calendar.SignedYear` states what it means instead.
- Calendar.FormatDate: the date is computed exactly for every integer second. Go works in 64-bit arithmetic that overflows for seconds near the int64 limits (`time.Unix` adds 62135596800 to the second), and what Go writes there is not modelled. No decoded record or clock reading gets near that range.
- Sender.SearchFrom: the panic of the proof-of-work test is modelled as the error `DigestIndexOutOfRange`, which `GetQuote` returns. In Go it is a panic, and the client's `do` (cmd/client/client.go:42-58) has no `recover`, so it ends the client process instead of being logged as at cmd/client/client.go:35-37.
- Calendar.ParseFormatDate: holds only for years 1969 to 2068, the years a two-digit year field can name; other dates do not round-trip in Go either.
- Sender.SearchFrom: the counter is an unbounded integer. Go's `Counter++` on an int64 would wrap when `maxCounter` is the largest int64, and that wrap-around is not modelled.
- Receiver.IsExpired: `time.Time.Sub` saturates at the int64 duration range; the model subtracts unbounded integers.
- Text.ReadLine: on a stream that ends before '\n', Go returns the partial line together with the error. The model returns only the error, which every caller treats the same way.
- Base64.Decode: the contract does not state the output length (three bytes per quantum, minus padding).
- Sender.Config: the sender's `zerosCount` setting is carried but never used, as in the code.

=== FILE: base64.dfy ===
/** The standard base64 encoding with padding (section 4 of RFC 4648), as
    Go's `base64.StdEncoding` implements it: `EncodeToString` always pads to a
    multiple of four characters; `DecodeString` skips '\r' and '\n' anywhere,
    accepts padding only in the last quantum, and, not being strict, ignores
    the unused low bits of a padded final quantum. */
module Base64 {
  import opened Outcomes

  /** A six-bit value; the bits of the bytes are regrouped into these. */
  type Sextet = x: bv8 | x < 64

  const Pad: char := '='

  /** The alphabet of section 4 of RFC 4648. */
  function SextetChar(x: Sextet): char {
    if x < 26 then ('A' as int + x as int) as char
    else if x < 52 then ('a' as int + (x as int - 26)) as char
    else if x < 62 then ('0' as int + (x as int - 52)) as char
    else if x == 62 then '+'
    else '/'
  }

  /** The sextet with value `v`. */
  function SextetOf(v: int): (x: Sextet)
    requires 0 <= v < 64
    ensures x as int == v
  {
    v as bv8
  }

  /** The inverse of the alphabet; `None` for characters outside it. */
  function CharSextet(c: char): (r: Option<Sextet>)
    ensures r.Some? ==> SextetChar(r.value) == c
  {
    if 'A' <= c <= 'Z' then Some(SextetOf(c as int - 'A' as int))
    else if 'a' <= c <= 'z' then Some(SextetOf(c as int - 'a' as int + 26))
    else if '0' <= c <= '9' then Some(SextetOf(c as int - '0' as int + 52))
    else if c == '+' then Some(62)
    else if c == '/' then Some(63)
    else None
  }

  lemma CharOfSextet(x: Sextet)
    ensures CharSextet(SextetChar(x)) == Some(x)
  {
  }

  predicate InAlphabet(c: char) {
    CharSextet(c).Some?
  }

  /** The four sextets of three bytes, most significant bits first. */
  function Split3(b0: bv8, b1: bv8, b2: bv8): (Sextet, Sextet, Sextet, Sextet) {
    (b0 >> 2, ((b0 & 3) << 4) | (b1 >> 4), ((b1 & 15) << 2) | (b2 >> 6), b2 & 63)
  }

  /** Three bytes from four sextets; `Split3` undone. */
  function Join4(x0: Sextet, x1: Sextet, x2: Sextet, x3: Sextet): seq<bv8> {
    [(x0 << 2) | (x1 >> 4), (x1 << 4) | (x2 >> 2), (x2 << 6) | x3]
  }

  lemma Join4Split3(b0: bv8, b1: bv8, b2: bv8)
    ensures var (x0, x1, x2, x3) := Split3(b0, b1, b2); Join4(x0, x1, x2, x3) == [b0, b1, b2]
  {
  }

  /** `EncodeToString`: each group of three bytes becomes four characters;
      a final group of one or two bytes is padded with '='. */
  function Encode(b: seq<bv8>): (s: string)
    ensures |s| == 4 * ((|b| + 2) / 3)
    decreases |b|
  {
    if |b| == 0 then ""
    else if |b| == 1 then
      var (x0, x1, _, _) := Split3(b[0], 0, 0);
      [SextetChar(x0), SextetChar(x1), Pad, Pad]
    else if |b| == 2 then
      var (x0, x1, x2, _) := Split3(b[0], b[1], 0);
      [SextetChar(x0), SextetChar(x1), SextetChar(x2), Pad]
    else EncodeGroup(b[0], b[1], b[2]) + Encode(b[3..])
  }

  /** The four characters of a full group of three bytes. */
  function EncodeGroup(b0: bv8, b1: bv8, b2: bv8): (s: string)
    ensures |s| == 4
  {
    var (x0, x1, x2, x3) := Split3(b0, b1, b2);
    [SextetChar(x0), SextetChar(x1), SextetChar(x2), SextetChar(x3)]
  }

  predicate IsLineBreak(c: char) {
    c == '\r' || c == '\n'
  }

  /** The input with every '\r' and '\n' removed. */
  function StripLineBreaks(s: string): (t: string)
    ensures |t| <= |s|
    ensures forall i :: 0 <= i < |t| ==> !IsLineBreak(t[i])
  {
    if |s| == 0 then ""
    else if IsLineBreak(s[0]) then StripLineBreaks(s[1..])
    else [s[0]] + StripLineBreaks(s[1..])
  }

  /** One four-character quantum; `last` says whether it ends the input,
      the only place where padding may appear. */
  function DecodeQuantum(c0: char, c1: char, c2: char, c3: char, last: bool): (r: Option<seq<bv8>>)
    ensures r.Some? ==> 1 <= |r.value| <= 3
    ensures r.Some? && |r.value| < 3 ==> last
  {
    match (CharSextet(c0), CharSextet(c1), CharSextet(c2), CharSextet(c3))
    case (Some(x0), Some(x1), Some(x2), Some(x3)) => Some(Join4(x0, x1, x2, x3))
    case (Some(x0), Some(x1), Some(x2), None) =>
      if c3 == Pad && last then Some(Join4(x0, x1, x2, 0)[..2]) else None
    case (Some(x0), Some(x1), None, None) =>
      if c2 == Pad && c3 == Pad && last then Some(Join4(x0, x1, 0, 0)[..1]) else None
    case _ => None
  }

  /** Decoding of a line-break-free input, one quantum at a time. A length
      that is not a multiple of four is an error, since padding is required. */
  function DecodeQuanta(s: string): (r: Option<seq<bv8>>)
    ensures r.Some? ==> |s| % 4 == 0
    decreases |s|
  {
    if |s| == 0 then Some([])
    else if |s| < 4 then None
    else
      match DecodeQuantum(s[0], s[1], s[2], s[3], |s| == 4)
      case None => None
      case Some(q) =>
        match DecodeQuanta(s[4..])
        case None => None
        case Some(rest) => Some(q + rest)
  }

  /** `DecodeString`. */
  function Decode(s: string): (r: Option<seq<bv8>>)
    ensures r.Some? ==> |StripLineBreaks(s)| % 4 == 0
  {
    DecodeQuanta(StripLineBreaks(s))
  }

  /** Decoding after encoding gives back the bytes (section 4 of RFC 4648). */
  lemma DecodeEncode(b: seq<bv8>)
    ensures Decode(Encode(b)) == Some(b)
  {
    var s := Encode(b);
    EncodeFree(b);
    StripNoLineBreaks(s);
    assert Decode(s) == DecodeQuanta(s);
    DecodeQuantaEncode(b);
  }

  lemma {:induction false} DecodeQuantaEncode(b: seq<bv8>)
    ensures DecodeQuanta(Encode(b)) == Some(b)
    decreases |b|
  {
    if |b| == 1 {
      assert b == [b[0]];
      QuantumOfOne(b[0]);
    } else if |b| == 2 {
      assert b == [b[0], b[1]];
      QuantumOfTwo(b[0], b[1]);
    } else if |b| >= 3 {
      assert b == [b[0], b[1], b[2]] + b[3..];
      assert Encode(b) == EncodeGroup(b[0], b[1], b[2]) + Encode(b[3..]);
      DecodeQuantaEncode(b[3..]);
      QuantumOfThree(b[0], b[1], b[2], Encode(b[3..]), b[3..]);
    }
  }

  lemma QuantumOfOne(b0: bv8)
    ensures DecodeQuanta(Encode([b0])) == Some([b0])
  {
    var (x0, x1, x2, x3) := Split3(b0, 0, 0);
    Join4Split3(b0, 0, 0);
    CharOfSextet(x0);
    CharOfSextet(x1);
    var s := Encode([b0]);
    assert s == [SextetChar(x0), SextetChar(x1), Pad, Pad];
    assert CharSextet(Pad) == None;
    assert x2 == 0 && x3 == 0;
    assert Join4(x0, x1, 0, 0)[..1] == [b0];
    assert DecodeQuantum(s[0], s[1], s[2], s[3], true) == Some([b0]);
    assert s[4..] == [];
    assert DecodeQuanta(s[4..]) == Some([]);
    assert [b0] + [] == [b0];
  }

  lemma QuantumOfTwo(b0: bv8, b1: bv8)
    ensures DecodeQuanta(Encode([b0, b1])) == Some([b0, b1])
  {
    var (x0, x1, x2, x3) := Split3(b0, b1, 0);
    Join4Split3(b0, b1, 0);
    CharOfSextet(x0);
    CharOfSextet(x1);
    CharOfSextet(x2);
    var s := Encode([b0, b1]);
    assert s == [SextetChar(x0), SextetChar(x1), SextetChar(x2), Pad];
    assert CharSextet(Pad) == None;
    assert x3 == 0;
    assert Join4(x0, x1, x2, 0)[..2] == [b0, b1];
    assert DecodeQuantum(s[0], s[1], s[2], s[3], true) == Some([b0, b1]);
    assert s[4..] == [];
    assert DecodeQuanta(s[4..]) == Some([]);
    assert [b0, b1] + [] == [b0, b1];
  }

  /** A full group in front of text that decodes. */
  lemma QuantumOfThree(b0: bv8, b1: bv8, b2: bv8, rest: string, tail: seq<bv8>)
    requires DecodeQuanta(rest) == Some(tail)
    ensures DecodeQuanta(EncodeGroup(b0, b1, b2) + rest) == Some([b0, b1, b2] + tail)
  {
    var (x0, x1, x2, x3) := Split3(b0, b1, b2);
    Join4Split3(b0, b1, b2);
    CharOfSextet(x0);
    CharOfSextet(x1);
    CharOfSextet(x2);
    CharOfSextet(x3);
    var s := EncodeGroup(b0, b1, b2) + rest;
    assert s[4..] == rest;
  }

  lemma {:induction false} StripNoLineBreaks(s: string)
    requires forall i :: 0 <= i < |s| ==> !IsLineBreak(s[i])
    ensures StripLineBreaks(s) == s
    decreases |s|
  {
    if |s| > 0 {
      StripNoLineBreaks(s[1..]);
    }
  }

  lemma {:induction false} StripAppend(s: string, t: string)
    ensures StripLineBreaks(s + t) == StripLineBreaks(s) + StripLineBreaks(t)
    decreases |s|
  {
    if |s| > 0 {
      assert (s + t)[1..] == s[1..] + t;
      StripAppend(s[1..], t);
    } else {
      assert s + t == t;
    }
  }

  /** A single character is dropped exactly when it is a line break. With
      `StripAppend` this fixes `StripLineBreaks` on every input: the other
      characters are kept, in order. */
  lemma StripSingle(c: char)
    ensures StripLineBreaks([c]) == if IsLineBreak(c) then "" else [c]
  {
    assert [c][1..] == "";
  }

  /** A line break after the text (the '\n' a line reader leaves on the last
      field) does not change what decodes. */
  lemma DecodeIgnoresNewline(s: string)
    ensures Decode(s + "\n") == Decode(s)
  {
    StripAppend(s, "\n");
    assert StripLineBreaks("\n") == "";
    assert StripLineBreaks(s) + "" == StripLineBreaks(s);
  }

  /** Encoded text is made of alphabet characters and padding only. */
  lemma {:induction false} EncodeAlphabet(b: seq<bv8>)
    ensures forall i :: 0 <= i < |Encode(b)| ==> InAlphabet(Encode(b)[i]) || Encode(b)[i] == Pad
    decreases |b|
  {
    var s := Encode(b);
    if |b| == 1 {
      var (x0, x1, _, _) := Split3(b[0], 0, 0);
      CharOfSextet(x0);
      CharOfSextet(x1);
    } else if |b| == 2 {
      var (x0, x1, x2, _) := Split3(b[0], b[1], 0);
      CharOfSextet(x0);
      CharOfSextet(x1);
      CharOfSextet(x2);
    } else if |b| >= 3 {
      var (x0, x1, x2, x3) := Split3(b[0], b[1], b[2]);
      CharOfSextet(x0);
      CharOfSextet(x1);
      CharOfSextet(x2);
      CharOfSextet(x3);
      EncodeAlphabet(b[3..]);
      assert s == EncodeGroup(b[0], b[1], b[2]) + Encode(b[3..]);
    }
  }

  /** Encoded text holds neither the record separator ':' nor a line break. */
  lemma EncodeFree(b: seq<bv8>)
    ensures ':' !in Encode(b) && '\n' !in Encode(b)
    ensures forall i :: 0 <= i < |Encode(b)| ==> !IsLineBreak(Encode(b)[i])
  {
    var s := Encode(b);
    EncodeAlphabet(b);
    forall i | 0 <= i < |s| ensures s[i] != ':' && !IsLineBreak(s[i]) {
      assert InAlphabet(s[i]) || s[i] == Pad;
    }
  }
}

=== FILE: bits.dfy ===
/** The proof-of-work test on a digest: are its first `zerosCount` bits zero,
    most significant bit of each byte first? `IsLeadingBitsZero` follows the
    Go code step by step (whole bytes, then a masked partial byte); `Bit` and
    `FirstBitsZero` are the plain bit-level reading it is proved against. */
module Bits {
  import opened Outcomes

  /** Go's `/` on integers: the quotient truncated toward zero. */
  function GoQuo(a: int, b: int): (q: int)
    requires b > 0
    ensures a >= 0 ==> q == a / b
    ensures a <= 0 ==> q <= 0
  {
    if a >= 0 then a / b else -((-a) / b)
  }

  /** Go's `%`: the remainder carries the sign of the dividend. */
  function GoRem(a: int, b: int): (r: int)
    requires b > 0
    ensures a >= 0 ==> r == a % b
    ensures a <= 0 ==> r <= 0
  {
    a - GoQuo(a, b) * b
  }

  /** Bit `j` (0 is the most significant) of one byte. */
  function ByteBit(x: bv8, j: int): bv8
    requires 0 <= j < 8
  {
    (x >> (7 - j)) & 1
  }

  /** Bit `j` of a byte string, counting from the most significant bit of
      the first byte. */
  function Bit(data: seq<bv8>, j: int): bv8
    requires 0 <= j < 8 * |data|
  {
    ByteBit(data[j / 8], j % 8)
  }

  /** The reference reading: the first `k` bits are all zero. */
  predicate FirstBitsZero(data: seq<bv8>, k: int)
    requires k <= 8 * |data|
  {
    forall j :: 0 <= j < k ==> Bit(data, j) == 0
  }

  /** `byte(0xFF << (8 - r))`: the top `r` bits of a byte set. */
  function Mask(r: int): bv8
    requires 0 < r < 8
  {
    0xFF << (8 - r)
  }

  /** The whole-byte loop of the Go test, from index `i` up to but not
      including `n`: it stops with false at the first nonzero byte, and
      gives `None` when it would read past the end of `data` (a Go
      index-out-of-range panic). */
  function WholeBytesZero(data: seq<bv8>, i: int, n: int): (r: Option<bool>)
    requires 0 <= i
    ensures r.None? ==> |data| < n
    ensures r == Some(true) ==> n <= i || n <= |data|
    ensures r == Some(true) ==> forall m :: i <= m < n ==> data[m] == 0
    ensures r == Some(false) ==> exists m :: i <= m < n && m < |data| && data[m] != 0
    decreases n - i
  {
    if i >= n then Some(true)
    else if i >= |data| then None
    else if data[i] != 0 then Some(false)
    else WholeBytesZero(data, i + 1, n)
  }

  /** `HashCash.IsLeadingBitsZero` on the digest `data`: `Some(b)` when Go
      returns `b`, `None` when Go panics indexing past the digest. */
  function IsLeadingBitsZero(data: seq<bv8>, zerosCount: int): (r: Option<bool>)
    ensures zerosCount <= 0 ==> r == Some(true)
    ensures r.None? ==> zerosCount > 8 * |data|
  {
    var fullBytes := GoQuo(zerosCount, 8);
    var remainingBits := GoRem(zerosCount, 8);
    match WholeBytesZero(data, 0, fullBytes)
    case None => None
    case Some(false) => Some(false)
    case Some(true) =>
      if remainingBits > 0 then
        if fullBytes >= |data| then None
        else Some(data[fullBytes] & Mask(remainingBits) == 0)
      else Some(true)
  }

  predicate ZeroBytes(data: seq<bv8>, i: int, n: int)
    requires 0 <= i && n <= |data|
  {
    forall m :: i <= m < n ==> data[m] == 0
  }

  /** What the whole-byte loop returns: false at the first nonzero byte in
      range, a panic if it runs off the end, true otherwise. */
  lemma {:induction false} WholeBytesZeroMeaning(data: seq<bv8>, i: int, n: int)
    requires 0 <= i <= |data|
    ensures var lim := if n < |data| then n else |data|;
      WholeBytesZero(data, i, n) ==
        if !ZeroBytes(data, i, lim) then Some(false)
        else if n > |data| then None
        else Some(true)
    decreases n - i
  {
    if i < n && i < |data| {
      WholeBytesZeroMeaning(data, i + 1, n);
    }
  }

  /** The top `r` bits of a byte are zero exactly when shifting out the rest
      leaves zero. */
  lemma TopBitsByShift(x: bv8, r: int)
    requires 0 <= r <= 8
    ensures (forall j :: 0 <= j < r ==> ByteBit(x, j) == 0) <==> (x >> (8 - r)) == 0
  {
    if forall j :: 0 <= j < r ==> ByteBit(x, j) == 0 {
      if r > 0 { assert ByteBit(x, 0) == 0; }
      if r > 1 { assert ByteBit(x, 1) == 0; }
      if r > 2 { assert ByteBit(x, 2) == 0; }
      if r > 3 { assert ByteBit(x, 3) == 0; }
      if r > 4 { assert ByteBit(x, 4) == 0; }
      if r > 5 { assert ByteBit(x, 5) == 0; }
      if r > 6 { assert ByteBit(x, 6) == 0; }
      if r > 7 { assert ByteBit(x, 7) == 0; }
    }
  }

  /** The mask test on a partial byte is the test of its top `r` bits. */
  lemma MaskTest(x: bv8, r: int)
    requires 0 < r < 8
    ensures x & Mask(r) == 0 <==> forall j :: 0 <= j < r ==> ByteBit(x, j) == 0
  {
    TopBitsByShift(x, r);
  }

  /** A byte is zero exactly when all eight of its bits are. */
  lemma ZeroByte(x: bv8)
    ensures x == 0 <==> forall j :: 0 <= j < 8 ==> ByteBit(x, j) == 0
  {
    TopBitsByShift(x, 8);
  }

  lemma BitOfByte(data: seq<bv8>, m: int, b: int)
    requires 0 <= m < |data| && 0 <= b < 8
    ensures Bit(data, 8 * m + b) == ByteBit(data[m], b)
  {
    assert (8 * m + b) / 8 == m && (8 * m + b) % 8 == b;
  }

  /** The first `k` bits are zero exactly when the first `k / 8` bytes are
      zero and the top `k % 8` bits of the next byte are. */
  lemma FirstBitsByBytes(data: seq<bv8>, k: int)
    requires 0 <= k <= 8 * |data|
    ensures FirstBitsZero(data, k) <==>
      && ZeroBytes(data, 0, k / 8)
      && (k % 8 > 0 ==> forall j :: 0 <= j < k % 8 ==> ByteBit(data[k / 8], j) == 0)
  {
    var q, r := k / 8, k % 8;
    if FirstBitsZero(data, k) {
      forall m | 0 <= m < q ensures data[m] == 0 {
        forall j | 0 <= j < 8 ensures ByteBit(data[m], j) == 0 {
          BitOfByte(data, m, j);
        }
        ZeroByte(data[m]);
      }
      if r > 0 {
        forall j | 0 <= j < r ensures ByteBit(data[q], j) == 0 {
          BitOfByte(data, q, j);
        }
      }
    }
    if ZeroBytes(data, 0, q) && (r > 0 ==> forall j :: 0 <= j < r ==> ByteBit(data[q], j) == 0) {
      forall j | 0 <= j < k ensures Bit(data, j) == 0 {
        var m, b := j / 8, j % 8;
        BitOfByte(data, m, b);
        assert j == 8 * m + b;
        if m < q {
          ZeroByte(data[m]);
        }
      }
    }
  }

  /** The Go predicate computes the reference reading whenever the difficulty
      fits in the digest, and never panics then; a difficulty of zero or less
      is met by every digest. */
  lemma IsLeadingBitsZeroCorrect(data: seq<bv8>, k: int)
    requires k <= 8 * |data|
    ensures IsLeadingBitsZero(data, k) == Some(FirstBitsZero(data, k))
    ensures k <= 0 ==> IsLeadingBitsZero(data, k) == Some(true)
  {
    if k > 0 {
      var q, r := k / 8, k % 8;
      WholeBytesZeroMeaning(data, 0, q);
      FirstBitsByBytes(data, k);
      if r > 0 {
        MaskTest(data[q], r);
      }
    }
  }

  /** An easier difficulty is met whenever a harder one is. */
  lemma Monotonic(data: seq<bv8>, d: int, d': int)
    requires d' <= d <= 8 * |data|
    requires IsLeadingBitsZero(data, d) == Some(true)
    ensures IsLeadingBitsZero(data, d') == Some(true)
  {
    IsLeadingBitsZeroCorrect(data, d);
    IsLeadingBitsZeroCorrect(data, d');
  }

  /** A digest whose first `k` bits are zero and whose bit `k` is one meets
      every difficulty up to `k` and fails `k + 1`. */
  lemma ExactDifficulty(data: seq<bv8>, k: int, d: int)
    requires 0 <= k < 8 * |data|
    requires FirstBitsZero(data, k) && Bit(data, k) == 1
    requires d <= k + 1
    ensures IsLeadingBitsZero(data, d) == Some(d <= k)
  {
    IsLeadingBitsZeroCorrect(data, d);
  }

  /** A difficulty beyond the digest's length: the Go code returns false at
      the first nonzero byte, and panics only if every byte is zero. */
  lemma BeyondDigest(data: seq<bv8>, k: int)
    requires k > 8 * |data|
    ensures IsLeadingBitsZero(data, k) == if ZeroBytes(data, 0, |data|) then None else Some(false)
  {
    var q := k / 8;
    WholeBytesZeroMeaning(data, 0, q);
  }
}

=== FILE: calendar.dfy ===
/** The date field of the record: Unix seconds rendered with Go's layout
    "060102" (two-digit year, month, day) and parsed back with `time.Parse`,
    in UTC. Parsing maps a two-digit year `yy` to 19yy when `yy >= 69` and to
    20yy otherwise, and gives the instant at the start of that day. Dates are
    proleptic Gregorian; day 0 is 1970-01-01. */
module Calendar {
  import opened Outcomes
  import opened Decimal

  const SecondsPerDay: int := 86400
  const EpochYear: int := 1970

  /** The first and last year a two-digit year field can stand for. */
  const FirstWindowYear: int := 1969
  const LastWindowYear: int := 2068

  predicate IsLeap(y: int) {
    y % 4 == 0 && (y % 100 != 0 || y % 400 == 0)
  }

  function DaysInYear(y: int): int {
    if IsLeap(y) then 366 else 365
  }

  function DaysInMonth(m: int, y: int): int
    requires 1 <= m <= 12
  {
    if m == 2 then (if IsLeap(y) then 29 else 28)
    else if m == 4 || m == 6 || m == 9 || m == 11 then 30
    else 31
  }

  /** Days of year `y` before the first of month `m`; month 13 stands for
      the end of the year. */
  function DaysBeforeMonth(m: int, y: int): int
    requires 1 <= m <= 13
  {
    var common :=
      if m == 1 then 0 else if m == 2 then 31 else if m == 3 then 59
      else if m == 4 then 90 else if m == 5 then 120 else if m == 6 then 151
      else if m == 7 then 181 else if m == 8 then 212 else if m == 9 then 243
      else if m == 10 then 273 else if m == 11 then 304 else if m == 12 then 334
      else 365;
    if IsLeap(y) && m > 2 then common + 1 else common
  }

  lemma DaysBeforeNextMonth(m: int, y: int)
    requires 1 <= m <= 12
    ensures DaysBeforeMonth(m + 1, y) == DaysBeforeMonth(m, y) + DaysInMonth(m, y)
    ensures DaysBeforeMonth(13, y) == DaysInYear(y)
  {
  }

  /** Days from 1970-01-01 to the first of January of year `y` (negative
      before 1970). */
  function DaysBeforeYear(y: int): int
    decreases if y < EpochYear then EpochYear - y else y - EpochYear
  {
    if y == EpochYear then 0
    else if y > EpochYear then DaysBeforeYear(y - 1) + DaysInYear(y - 1)
    else DaysBeforeYear(y + 1) - DaysInYear(y)
  }

  lemma DaysBeforeNextYear(y: int)
    ensures DaysBeforeYear(y + 1) == DaysBeforeYear(y) + DaysInYear(y)
  {
  }

  /** Later years start later, by at least a year's worth of days. */
  lemma {:induction false} DaysBeforeYearGrows(a: int, b: int)
    requires a < b
    ensures DaysBeforeYear(a + 1) <= DaysBeforeYear(b)
    decreases b - a
  {
    if a + 1 < b {
      DaysBeforeYearGrows(a + 1, b);
      DaysBeforeNextYear(a + 1);
    }
  }

  /** Leap years from year 1 up to, not including, year `y` (a negative count
      for years before 1). */
  function LeapsBefore(y: int): int {
    (y - 1) / 4 - (y - 1) / 100 + (y - 1) / 400
  }

  /** Quotient and remainder are determined by the division equation. */
  lemma DivUnique(a: int, k: int, q: int, r: int)
    requires k > 0 && 0 <= r < k && a == k * q + r
    ensures a / k == q
  {
    var q', r' := a / k, a % k;
    assert k * (q' - q) == r - r';
    MultipleBelow(k, q' - q);
  }

  /** The only multiple of `k` strictly between `-k` and `k` is zero. */
  lemma MultipleBelow(k: int, d: int)
    requires k > 0 && -k < k * d < k
    ensures d == 0
  {
    if d > 0 {
      MultipleAtLeast(k, d);
    } else if d < 0 {
      MultipleAtLeast(k, -d);
    }
  }

  lemma {:induction false} MultipleAtLeast(k: int, d: int)
    requires k > 0 && d >= 1
    ensures k * d >= k
    decreases d
  {
    if d > 1 {
      MultipleAtLeast(k, d - 1);
      assert k * d == k * (d - 1) + k;
    }
  }

  /** Stepping the dividend by one raises the quotient exactly at multiples. */
  lemma DivStep(y: int, k: int)
    requires k > 0
    ensures y / k - (y - 1) / k == if y % k == 0 then 1 else 0
  {
    var q, r := y / k, y % k;
    if r == 0 {
      DivUnique(y - 1, k, q - 1, k - 1);
    } else {
      DivUnique(y - 1, k, q, r - 1);
    }
  }

  lemma LeapStep(y: int)
    ensures LeapsBefore(y + 1) == LeapsBefore(y) + (if IsLeap(y) then 1 else 0)
  {
    DivStep(y, 4);
    DivStep(y, 100);
    DivStep(y, 400);
  }

  /** The day count to a year in closed form: 365 days a year plus one per
      leap year in between. */
  lemma {:induction false} DaysBeforeYearClosed(y: int)
    ensures DaysBeforeYear(y) == 365 * (y - EpochYear) + LeapsBefore(y) - LeapsBefore(EpochYear)
    decreases if y < EpochYear then EpochYear - y else y - EpochYear
  {
    if y > EpochYear {
      DaysBeforeYearClosed(y - 1);
      LeapStep(y - 1);
    } else if y < EpochYear {
      DaysBeforeYearClosed(y + 1);
      LeapStep(y);
    }
  }

  datatype Date = Date(year: int, month: int, day: int)

  predicate Valid(d: Date) {
    1 <= d.month <= 12 && 1 <= d.day <= DaysInMonth(d.month, d.year)
  }

  /** Days from 1970-01-01 to the date. */
  function DayNumber(d: Date): int
    requires 1 <= d.month <= 12
  {
    DaysBeforeYear(d.year) + DaysBeforeMonth(d.month, d.year) + d.day - 1
  }

  /** The year holding day `n`, searching upwards from year `y`. */
  function YearUpFrom(y: int, n: int): (r: int)
    requires DaysBeforeYear(y) <= n
    ensures DaysBeforeYear(r) <= n < DaysBeforeYear(r + 1)
    decreases n - DaysBeforeYear(y)
  {
    DaysBeforeNextYear(y);
    if n < DaysBeforeYear(y + 1) then y else YearUpFrom(y + 1, n)
  }

  /** The year holding day `n`, searching downwards from year `y`. */
  function YearDownFrom(y: int, n: int): (r: int)
    requires n < DaysBeforeYear(y + 1)
    ensures DaysBeforeYear(r) <= n < DaysBeforeYear(r + 1)
    decreases DaysBeforeYear(y) - n
  {
    DaysBeforeNextYear(y - 1);
    if DaysBeforeYear(y) <= n then y else YearDownFrom(y - 1, n)
  }

  /** The month of year `y` holding day `k` of that year, searching downwards
      from month `m`. */
  function MonthDownFrom(k: int, y: int, m: int): (r: int)
    requires 1 <= m <= 12 && 0 <= k < DaysBeforeMonth(m + 1, y)
    ensures 1 <= r <= m && DaysBeforeMonth(r, y) <= k < DaysBeforeMonth(r + 1, y)
    decreases m
  {
    if DaysBeforeMonth(m, y) <= k then m else MonthDownFrom(k, y, m - 1)
  }

  /** The calendar date of day `n`; `DayNumber` undone. */
  function DateOfDay(n: int): (d: Date)
    ensures Valid(d) && DayNumber(d) == n
  {
    var y := if n >= 0 then YearUpFrom(EpochYear, n) else YearDownFrom(EpochYear - 1, n);
    var k := n - DaysBeforeYear(y);
    DaysBeforeNextYear(y);
    DaysBeforeNextMonth(12, y);
    var m := MonthDownFrom(k, y, 12);
    DaysBeforeNextMonth(m, y);
    Date(y, m, k - DaysBeforeMonth(m, y) + 1)
  }

  /** A valid date's day number lies within its year and its month. */
  lemma DayNumberBounds(d: Date)
    requires Valid(d)
    ensures DaysBeforeYear(d.year) <= DayNumber(d) < DaysBeforeYear(d.year + 1)
  {
    DaysBeforeNextMonth(d.month, d.year);
    DaysBeforeNextYear(d.year);
    DaysBeforeMonthGrows(d.month + 1, 13, d.year);
  }

  lemma DaysBeforeMonthGrows(a: int, b: int, y: int)
    requires 1 <= a <= b <= 13
    ensures DaysBeforeMonth(a, y) <= DaysBeforeMonth(b, y)
  {
  }

  /** Distinct valid dates have distinct day numbers. */
  lemma DayNumberInjective(d1: Date, d2: Date)
    requires Valid(d1) && Valid(d2)
    requires DayNumber(d1) == DayNumber(d2)
    ensures d1 == d2
  {
    DayNumberBounds(d1);
    DayNumberBounds(d2);
    if d1.year < d2.year {
      DaysBeforeYearGrows(d1.year, d2.year);
    } else if d2.year < d1.year {
      DaysBeforeYearGrows(d2.year, d1.year);
    }
    var y := d1.year;
    DaysBeforeNextMonth(d1.month, y);
    DaysBeforeNextMonth(d2.month, y);
    if d1.month < d2.month {
      DaysBeforeMonthGrows(d1.month + 1, d2.month, y);
    } else if d2.month < d1.month {
      DaysBeforeMonthGrows(d2.month + 1, d1.month, y);
    }
  }

  /** Every valid date is found again from its day number. */
  lemma DateOfDayNumber(d: Date)
    requires Valid(d)
    ensures DateOfDay(DayNumber(d)) == d
  {
    DayNumberInjective(DateOfDay(DayNumber(d)), d);
  }

  /** The day holding Unix second `t` (rounding down, also before 1970). */
  function DayOf(t: int): int {
    t / SecondsPerDay
  }

  /** The first second of the day holding `t`. */
  function DayStart(t: int): (s: int)
    ensures s <= t < s + SecondsPerDay
    ensures s % SecondsPerDay == 0
  {
    DayOf(t) * SecondsPerDay
  }

  function DateOf(t: int): Date {
    DateOfDay(DayOf(t))
  }

  /** Instants whose year a two-digit year field can name. */
  predicate InYearWindow(t: int) {
    FirstWindowYear <= DateOf(t).year <= LastWindowYear
  }

  /** `v` as exactly two decimal digits (`%02d`). */
  function TwoDigits(v: int): (s: string)
    requires 0 <= v < 100
    ensures |s| == 2 && AllDigits(s)
  {
    [DigitChar(v / 10), DigitChar(v % 10)]
  }

  lemma TwoDigitsValue(v: int)
    requires 0 <= v < 100
    ensures ValueOf(TwoDigits(v)) == v
  {
    var s := TwoDigits(v);
    assert s[..1] == [s[0]];
    assert s[..1][..0] == [];
    assert ValueOf(s[..1]) == DigitValue(s[0]);
    assert DigitValue(s[0]) == v / 10 && DigitValue(s[1]) == v % 10;
  }

  lemma ValueTwoDigits(s: string)
    requires |s| == 2 && AllDigits(s)
    ensures ValueOf(s) < 100 && TwoDigits(ValueOf(s)) == s
  {
    assert s[..1] == [s[0]];
    assert s[..1][..0] == [];
    assert ValueOf(s[..1]) == DigitValue(s[0]);
    assert ValueOf(s) == DigitValue(s[0]) * 10 + DigitValue(s[1]);
  }

  /** The year field as `time.Parse` reads the "06" element: two characters
      given to Go's internal `atoi`, so either two digits or a sign followed by
      one digit ("+5" is 5, "-9" is -9). */
  function YearField(s: string): (r: Option<int>)
    requires |s| == 2
    ensures r.Some? ==> -9 <= r.value < 100
    ensures AllDigits(s) ==> r == Some(ValueOf(s))
    ensures r.Some? && !AllDigits(s) ==> (s[0] == '+' || s[0] == '-') && IsDigit(s[1])
  {
    if AllDigits(s) then
      ValueTwoDigits(s);
      Some(ValueOf(s))
    else if (s[0] == '+' || s[0] == '-') && IsDigit(s[1]) then
      Some(if s[0] == '-' then -DigitValue(s[1]) else DigitValue(s[1]))
    else None
  }

  /** The full year a year field stands for: 19yy from 69 up, 20yy below. */
  function CenturyPivot(yy: int): (y: int)
    requires -9 <= yy < 100
    ensures FirstWindowYear <= y <= LastWindowYear
    ensures yy >= 0 ==> y % 100 == yy
  {
    if yy >= 69 then 1900 + yy else 2000 + yy
  }

  /** `time.Unix(t, 0).Format("060102")` in UTC. Go writes the last two
      digits of the year's absolute value, so years before 1 drop their sign. */
  function FormatDate(t: int): (s: string)
    ensures |s| == 6 && AllDigits(s)
  {
    var d := DateOf(t);
    var y := if d.year < 0 then -d.year else d.year;
    TwoDigits(y % 100) + TwoDigits(d.month) + TwoDigits(d.day)
  }

  /** The three fields read back as the year's last two digits (sign
      dropped), the month and the day, for every instant. */
  lemma FormatDateDigits(t: int)
    ensures var d := DateOf(t); var s := FormatDate(t);
      && ValueOf(s[0..2]) == (if d.year < 0 then -d.year else d.year) % 100
      && ValueOf(s[2..4]) == d.month
      && ValueOf(s[4..6]) == d.day
  {
    var d := DateOf(t);
    var y := if d.year < 0 then -d.year else d.year;
    var s := FormatDate(t);
    assert s[0..2] == TwoDigits(y % 100) && s[2..4] == TwoDigits(d.month) && s[4..6] == TwoDigits(d.day);
    TwoDigitsValue(y % 100);
    TwoDigitsValue(d.month);
    TwoDigitsValue(d.day);
  }

  /** The date field carries only the day: the start of the day is written
      the same as any instant in it. */
  lemma FormatDayStart(t: int)
    ensures FormatDate(DayStart(t)) == FormatDate(t)
  {
    DivUnique(DayStart(t), SecondsPerDay, DayOf(t), 0);
  }

  /** December 31 is the day before the next year starts. */
  lemma LastDayNumber(y: int)
    ensures DayNumber(Date(y, 12, 31)) == DaysBeforeYear(y + 1) - 1
  {
    DaysBeforeNextYear(y);
    DaysBeforeNextMonth(12, y);
  }

  /** The last second of the year -1 (1 BC) is written "011231": the year is
      taken without its sign. */
  lemma NegativeYearDate(t: int)
    requires t == -62167219201
    ensures DateOf(t).year == -1
    ensures FormatDate(t) == "011231"
  {
    // The year -1, taken from `t` rather than written as a literal, so that
    // the day count is reached through its closed form.
    var y := t + 62167219200;
    var d := Date(y, 12, 31);
    LastDayNumber(y);
    DaysBeforeYearClosed(y + 1);
    assert LeapsBefore(y + 1) == -1 && LeapsBefore(EpochYear) == 477;
    assert DayNumber(d) == DayOf(t);
    DateOfDayNumber(d);
    assert TwoDigits(1) == "01" && TwoDigits(12) == "12" && TwoDigits(31) == "31";
  }

  /** `time.Parse("060102", s).Unix()`: six characters, the year field as
      `YearField` reads it, then a two-digit month from 1 to 12 and a two-digit
      day that exists in that month of the pivoted year. */
  function ParseDate(s: string): (r: Option<int>)
    ensures r.Some? ==> |s| == 6 && YearField(s[0..2]).Some? && AllDigits(s[2..6])
    ensures r.Some? ==> DayStart(r.value) == r.value
  {
    if |s| != 6 || !AllDigits(s[2..6]) then None
    else
      match YearField(s[0..2])
      case None => None
      case Some(yy) =>
        assert s[2..6][0..2] == s[2..4] && s[2..6][2..4] == s[4..6];
        var mm := ValueOf(s[2..4]);
        var dd := ValueOf(s[4..6]);
        if mm < 1 || mm > 12 then None
        else
          var year := CenturyPivot(yy);
          if dd < 1 || dd > DaysInMonth(mm, year) then None
          else Some(DayNumber(Date(year, mm, dd)) * SecondsPerDay)
  }

  /** Parsing the formatted date of an instant in the two-digit-year window
      gives the start of its day: the date round-trips at day granularity. */
  lemma ParseFormatDate(t: int)
    requires InYearWindow(t)
    ensures ParseDate(FormatDate(t)) == Some(DayStart(t))
  {
    var d := DateOf(t);
    ParseDateText(d);
    assert DayNumber(d) == DayOf(t);
  }

  /** The six digits of a valid date in the window parse to its first second. */
  lemma ParseDateText(d: Date)
    requires Valid(d) && FirstWindowYear <= d.year <= LastWindowYear
    ensures ParseDate(TwoDigits(d.year % 100) + TwoDigits(d.month) + TwoDigits(d.day))
         == Some(DayNumber(d) * SecondsPerDay)
  {
    var s := TwoDigits(d.year % 100) + TwoDigits(d.month) + TwoDigits(d.day);
    assert s[0..2] == TwoDigits(d.year % 100);
    assert s[2..4] == TwoDigits(d.month);
    assert s[4..6] == TwoDigits(d.day);
    TwoDigitsValue(d.year % 100);
    TwoDigitsValue(d.month);
    TwoDigitsValue(d.day);
    assert CenturyPivot(d.year % 100) == d.year;
  }

  /** What parses lies in the two-digit-year window and reads back the same
      after formatting; all-digit text is exactly what formatting writes. A
      signed year ("+5", "-9") parses, but formatting writes its digits. */
  lemma FormatParseDate(s: string)
    requires ParseDate(s).Some?
    ensures InYearWindow(ParseDate(s).value)
    ensures AllDigits(s) ==> FormatDate(ParseDate(s).value) == s
    ensures ParseDate(FormatDate(ParseDate(s).value)) == ParseDate(s)
  {
    var d := ParsedDate(s);
    var t := ParseDate(s).value;
    assert DayOf(t) == DayNumber(d);
    DateOfDayNumber(d);
    assert DateOf(t) == d;
    if AllDigits(s) {
      ValueTwoDigits(s[0..2]);
      ValueTwoDigits(s[2..4]);
      ValueTwoDigits(s[4..6]);
      assert s == s[0..2] + s[2..4] + s[4..6];
    }
    ParseFormatDate(t);
  }

  /** The date a parsed text names, with its fields as read. */
  lemma ParsedDate(s: string) returns (d: Date)
    requires ParseDate(s).Some?
    ensures Valid(d) && FirstWindowYear <= d.year <= LastWindowYear
    ensures ParseDate(s) == Some(DayNumber(d) * SecondsPerDay)
    ensures AllDigits(s[2..4]) && AllDigits(s[4..6])
    ensures d.month == ValueOf(s[2..4]) && d.day == ValueOf(s[4..6])
    ensures YearField(s[0..2]).value >= 0 ==> d.year % 100 == YearField(s[0..2]).value
  {
    assert s[2..6][0..2] == s[2..4] && s[2..6][2..4] == s[4..6];
    d := Date(CenturyPivot(YearField(s[0..2]).value), ValueOf(s[2..4]), ValueOf(s[4..6]));
  }

  /** A signed year means the same as the two digits formatting writes for
      it: "+d" is "0d", and "-d" is the year 2000 - d. */
  lemma SignedYear(d: char, rest: string)
    requires IsDigit(d)
    ensures ParseDate(['+', d] + rest) == ParseDate(['0', d] + rest)
    ensures ParseDate(['-', d] + rest) == ParseDate(TwoDigits((100 - DigitValue(d)) % 100) + rest)
  {
    var plus, zero := ['+', d] + rest, ['0', d] + rest;
    var minus, digits := ['-', d] + rest, TwoDigits((100 - DigitValue(d)) % 100) + rest;
    assert plus[0..2] == ['+', d] && zero[0..2] == ['0', d] && minus[0..2] == ['-', d];
    assert digits[0..2] == TwoDigits((100 - DigitValue(d)) % 100);
    var z: string := ['0', d];
    assert z[..1] == ['0'] && z[..|z| - 1] == ['0'];
    assert ['0'][..0] == [];
    assert ValueOf(['0']) == 0;
    assert ValueOf(z) == DigitValue(d);
    TwoDigitsValue((100 - DigitValue(d)) % 100);
    assert YearField(plus[0..2]) == YearField(zero[0..2]) == Some(DigitValue(d));
    assert !AllDigits(minus[0..2]) by { assert minus[0..2][0] == '-'; }
    assert YearField(minus[0..2]) == Some(-DigitValue(d));
    assert YearField(digits[0..2]) == Some((100 - DigitValue(d)) % 100);
    assert CenturyPivot(-DigitValue(d)) == CenturyPivot((100 - DigitValue(d)) % 100);
    if |rest| >= 4 {
      assert plus[2..6] == zero[2..6] == minus[2..6] == digits[2..6] == rest[0..4];
      assert plus[2..4] == zero[2..4] == minus[2..4] == digits[2..4];
      assert plus[4..6] == zero[4..6] == minus[4..6] == digits[4..6];
    }
  }
}

=== FILE: decimal.dfy ===
/** Decimal text for integers: Go's `fmt.Sprintf("%d", n)` and
    `strconv.ParseInt(s, 10, 64)`. Integers are unbounded here; the 64-bit
    range check that `ParseInt` performs is written out. */
module Decimal {
  import opened Outcomes

  const MinInt64: int := -0x8000_0000_0000_0000
  const MaxInt64: int := 0x7FFF_FFFF_FFFF_FFFF

  predicate IsInt64(n: int) {
    MinInt64 <= n <= MaxInt64
  }

  predicate IsDigit(c: char) {
    '0' <= c <= '9'
  }

  predicate AllDigits(s: string) {
    forall i :: 0 <= i < |s| ==> IsDigit(s[i])
  }

  function DigitChar(v: int): (c: char)
    requires 0 <= v < 10
    ensures IsDigit(c)
  {
    ('0' as int + v) as char
  }

  function DigitValue(c: char): (v: int)
    requires IsDigit(c)
    ensures 0 <= v < 10 && DigitChar(v) == c
  {
    c as int - '0' as int
  }

  /** The value of a string of decimal digits, most significant first;
      leading zeros are allowed. */
  function ValueOf(s: string): nat
    requires AllDigits(s)
  {
    if |s| == 0 then 0
    else ValueOf(s[..|s| - 1]) * 10 + DigitValue(s[|s| - 1])
  }

  /** The shortest decimal digit string of `n`. */
  function DigitsOf(n: nat): (s: string)
    ensures |s| >= 1 && AllDigits(s)
    ensures |s| > 1 || n >= 1 ==> s[0] != '0'
  {
    if n < 10 then [DigitChar(n)]
    else DigitsOf(n / 10) + [DigitChar(n % 10)]
  }

  /** Reading the digits of `n` gives back `n`. */
  lemma {:induction false} ValueOfDigitsOf(n: nat)
    ensures ValueOf(DigitsOf(n)) == n
  {
    var s := DigitsOf(n);
    if n >= 10 {
      ValueOfDigitsOf(n / 10);
      assert s[..|s| - 1] == DigitsOf(n / 10);
    }
  }

  /** Go's `%d`: a minus sign for negative numbers, then the digits. */
  function Format(n: int): (s: string)
    ensures |s| >= 1
    ensures forall i :: 0 <= i < |s| ==> IsDigit(s[i]) || (i == 0 && s[i] == '-')
    ensures s[0] == '-' <==> n < 0
  {
    if n < 0 then "-" + DigitsOf(-n) else DigitsOf(n)
  }

  /** `strconv.ParseInt(s, 10, 64)`: an optional '+' or '-', then at least one
      decimal digit and nothing else (no underscores, since the base is given),
      with the value inside the signed 64-bit range. */
  function ParseInt(s: string): (r: Option<int>)
    ensures r.Some? ==> IsInt64(r.value)
    ensures r.Some? ==> |s| >= 1 && (AllDigits(s) || ((s[0] == '-' || s[0] == '+') && AllDigits(s[1..])))
    ensures r.Some? && s[0] == '-' ==> r.value <= 0
  {
    if |s| == 0 then None
    else
      var negative := s[0] == '-';
      var body := if s[0] == '-' || s[0] == '+' then s[1..] else s;
      if |body| == 0 || !AllDigits(body) then None
      else
        var u: int := ValueOf(body);
        if !negative && u > MaxInt64 then None
        else if negative && u > -MinInt64 then None
        else Some(if negative then -u else u)
  }

  /** Parsing after formatting is the identity on 64-bit integers, negative
      ones included. */
  lemma ParseFormat(n: int)
    requires IsInt64(n)
    ensures ParseInt(Format(n)) == Some(n)
  {
    var s := Format(n);
    if n < 0 {
      var body := DigitsOf(-n);
      assert s[1..] == body;
      ValueOfDigitsOf(-n);
      assert |body| != 0 && AllDigits(body) && ValueOf(body) == -n;
    } else {
      ValueOfDigitsOf(n);
      assert s == DigitsOf(n) && IsDigit(s[0]);
    }
  }

  /** The form `Format` writes: no '+', no leading zero, no "-0". */
  predicate Canonical(s: string) {
    && |s| >= 1
    && s[0] != '+'
    && (s[0] == '-' ==> |s| >= 2 && s[1] != '0')
    && (s[0] != '-' && |s| > 1 ==> s[0] != '0')
  }

  lemma FormatCanonical(n: int)
    ensures Canonical(Format(n))
  {
    if n < 0 {
      assert Format(n)[1..] == DigitsOf(-n);
    }
  }

  /** Formatting after parsing gives back the text exactly when it is
      canonical. */
  lemma FormatParse(s: string)
    requires ParseInt(s).Some?
    ensures Format(ParseInt(s).value) == s <==> Canonical(s)
  {
    if Canonical(s) {
      var body := if s[0] == '-' then s[1..] else s;
      DigitsOfValueOf(body);
      if s[0] == '-' {
        assert s == "-" + body;
      }
    }
    FormatCanonical(ParseInt(s).value);
  }

  /** A '+' in front of digits changes nothing. */
  lemma PlusSign(s: string)
    requires |s| >= 1 && AllDigits(s)
    ensures ParseInt("+" + s) == ParseInt(s)
  {
    assert ("+" + s)[1..] == s;
  }

  /** Nor does a leading zero. */
  lemma ZeroPadding(s: string)
    requires |s| >= 1 && AllDigits(s)
    ensures ParseInt("0" + s) == ParseInt(s)
  {
    LeadingZero(s);
  }

  lemma {:induction false} LeadingZero(s: string)
    requires AllDigits(s)
    ensures AllDigits("0" + s) && ValueOf("0" + s) == ValueOf(s)
    decreases |s|
  {
    var t := "0" + s;
    if |s| == 0 {
      assert t[..|t| - 1] == [];
    } else {
      assert t[..|t| - 1] == "0" + s[..|s| - 1];
      LeadingZero(s[..|s| - 1]);
    }
  }

  /** A digit string without a leading zero is the digit string of its value. */
  lemma {:induction false} DigitsOfValueOf(s: string)
    requires |s| >= 1 && AllDigits(s)
    requires |s| > 1 ==> s[0] != '0'
    ensures DigitsOf(ValueOf(s)) == s
    decreases |s|
  {
    if |s| > 1 {
      var init := s[..|s| - 1];
      assert init[0] == s[0];
      DigitsOfValueOf(init);
      ValueAtLeastTen(init);
      var v := ValueOf(s);
      assert v / 10 == ValueOf(init) && v % 10 == DigitValue(s[|s| - 1]);
      assert s == init + [s[|s| - 1]];
    }
  }

  /** A digit string of two or more digits that does not start with zero is
      worth at least ten. */
  lemma {:induction false} ValueAtLeastTen(s: string)
    requires |s| >= 1 && AllDigits(s)
    requires |s| > 1 ==> s[0] != '0'
    ensures s[0] != '0' ==> ValueOf(s) >= 1
    ensures |s| > 1 ==> ValueOf(s) >= 10
    decreases |s|
  {
    if |s| > 1 {
      var init := s[..|s| - 1];
      assert init[0] == s[0];
      ValueAtLeastTen(init);
    }
  }
}

=== FILE: outcomes.dfy ===
/** Failure-compatible result types shared by the codec, the receiver and the
    sender. Every error the Go code can return is one `Error` value; the
    message texts are not modelled. */
module Outcomes {

  /** The error conditions of the modelled core, named after the check that
      raises them. */
  datatype Error =
    // protocol.FromBytes
    | BadFieldCount | BadVersion | BadZerosCount | BadDate | BadRand | BadCounter
    // receiver.VerifyChallenge
    | InvalidHashCash | DateExpired | IpMismatch | IpNotRegistered | HashReused
    // a Go runtime panic: IsLeadingBitsZero indexed past the end of the digest
    | DigestIndexOutOfRange
    // a repository call returned an error
    | StoreFailure
    // the stream ended (or failed) before a '\n', or a write failed
    | ReadFailure | WriteFailure
    // sender: the counter passed maxCounter without a solution
    | NoSolution

  /** An optional value, for helpers whose failure carries no reason. */
  datatype Option<+T> = None | Some(value: T) {
    predicate IsFailure() { None? }

    function PropagateFailure<U>(): Option<U>
      requires None?
    {
      None
    }

    function Extract(): T
      requires Some?
    {
      value
    }

    /** Turns a missing value into the given error. */
    function OrFail(e: Error): (r: Result<T>)
      ensures r.Ok? <==> Some?
      ensures r.Ok? ==> r.value == value
      ensures r.Err? ==> r.error == e
    {
      match this
      case Some(v) => Ok(v)
      case None => Err(e)
    }
  }

  /** A value or the error that prevented it. */
  datatype Result<+T> = Ok(value: T) | Err(error: Error) {
    predicate IsFailure() { Err? }

    function PropagateFailure<U>(): Result<U>
      requires Err?
    {
      Err(error)
    }

    function Extract(): T
      requires Ok?
    {
      value
    }
  }

  /** The outcome of an operation that returns only an error (Go's `error`). */
  datatype Outcome = Pass | Fail(error: Error)
}

=== FILE: protocol.dfy ===
/** The Hashcash record and its wire form
    `ver:bits:YYMMDD:resource:ext:rand:counter` (Hashcash stamp version 1):
    the version and the difficulty in decimal, the issue date as six digits,
    the client address, an always-empty extension field, the nonce in
    base64, and the counter rendered in decimal and then base64-encoded. */
module Protocol {
  import opened Outcomes
  import opened Text
  import Decimal
  import Base64
  import Calendar
  import Bits

  /** A SHA-1 digest (FIPS 180-4): twenty bytes. */
  type Digest = d: seq<bv8> | |d| == 20 witness seq(20, _ => 0)

  /** SHA-1 over the wire text. The hash is not modelled; every operation
      that needs it takes it as a parameter. */
  type Hasher = string -> Digest

  /** `protocol.HashCash`. `dateUnix` is in Unix seconds. */
  datatype HashCash = HashCash(
    version: int,
    zerosCount: int,
    dateUnix: int,
    counter: int,
    ip: string,
    rand: seq<bv8>)

  const Separator: char := ':'
  const FieldCount: int := 7

  /** Bytes read as characters, one per byte. Used only on the ASCII bytes of
      decimal text, where this agrees with Go's `string(b)`. */
  function Latin1(b: seq<bv8>): (s: string)
    ensures |s| == |b|
  {
    seq(|b|, i requires 0 <= i < |b| => (b[i] as int) as char)
  }

  /** A character of decimal text as its ASCII byte. */
  function AsciiByte(c: char): (x: bv8)
    requires Decimal.IsDigit(c) || c == '-'
    ensures (x as int) as char == c
  {
    if c == '-' then 0x2D
    else if c == '0' then 0x30
    else if c == '1' then 0x31
    else if c == '2' then 0x32
    else if c == '3' then 0x33
    else if c == '4' then 0x34
    else if c == '5' then 0x35
    else if c == '6' then 0x36
    else if c == '7' then 0x37
    else if c == '8' then 0x38
    else 0x39
  }

  /** Go's `[]byte(s)` for decimal text. */
  function DecimalBytes(s: string): (b: seq<bv8>)
    requires forall i :: 0 <= i < |s| ==> Decimal.IsDigit(s[i]) || s[i] == '-'
    ensures Latin1(b) == s
  {
    seq(|s|, i requires 0 <= i < |s| => AsciiByte(s[i]))
  }

  /** The counter field: the decimal text of the counter, base64-encoded. */
  function EncodeCounter(n: int): (s: string)
    ensures Decimal.IsInt64(n) ==> DecodeCounter(s) == Some(n)
  {
    CounterDecodes(n);
    Base64.Encode(DecimalBytes(Decimal.Format(n)))
  }

  /** The proof of `EncodeCounter`'s round trip. */
  lemma CounterDecodes(n: int)
    ensures Decimal.IsInt64(n) ==> DecodeCounter(Base64.Encode(DecimalBytes(Decimal.Format(n)))) == Some(n)
  {
    if Decimal.IsInt64(n) {
      Base64.DecodeEncode(DecimalBytes(Decimal.Format(n)));
      Decimal.ParseFormat(n);
    }
  }

  /** `decodeBase64Int64`: base64 first, then decimal. */
  function DecodeCounter(s: string): (r: Option<int>)
    ensures r.Some? ==> Decimal.IsInt64(r.value)
  {
    match Base64.Decode(s)
    case None => None
    case Some(b) => Decimal.ParseInt(Latin1(b))
  }

  /** The seven fields `ToBytes` writes, in order; the fifth is empty. */
  function Fields(h: HashCash): (f: seq<string>)
    ensures |f| == FieldCount
  {
    [ Decimal.Format(h.version),
      Decimal.Format(h.zerosCount),
      Calendar.FormatDate(h.dateUnix),
      h.ip,
      "",
      Base64.Encode(h.rand),
      EncodeCounter(h.counter) ]
  }

  /** `HashCash.ToBytes` (with the date in UTC). */
  function ToBytes(h: HashCash): (b: string)
    ensures Separator !in h.ip ==> Split(b, Separator) == Fields(h)
  {
    if Separator !in h.ip then
      FieldsFree(h);
      SplitJoin(Fields(h), Separator);
      Join(Fields(h), Separator)
    else Join(Fields(h), Separator)
  }

  /** `HashCash.SHA1Hash`: the digest of the record's own wire text. */
  function Sha1Hash(h: HashCash, sha1: Hasher): Digest {
    sha1(ToBytes(h))
  }

  /** `HashCash.IsLeadingBitsZero`: the proof-of-work test on the record's
      digest with the difficulty the record itself carries. */
  function IsLeadingBitsZero(h: HashCash, sha1: Hasher): Option<bool> {
    Bits.IsLeadingBitsZero(Sha1Hash(h, sha1), h.zerosCount)
  }

  /** What the test on a record decides: whether the first `zerosCount` bits
      of the record's digest are zero when that fits in the 160-bit digest;
      beyond it, false unless the digest is all zero, where Go panics. */
  lemma ProofOfWork(h: HashCash, sha1: Hasher)
    ensures h.zerosCount <= 8 * 20 ==>
      IsLeadingBitsZero(h, sha1) == Some(Bits.FirstBitsZero(Sha1Hash(h, sha1), h.zerosCount))
    ensures h.zerosCount > 8 * 20 ==>
      IsLeadingBitsZero(h, sha1) == if Bits.ZeroBytes(Sha1Hash(h, sha1), 0, 20) then None else Some(false)
  {
    var digest := Sha1Hash(h, sha1);
    if h.zerosCount <= 8 * 20 {
      Bits.IsLeadingBitsZeroCorrect(digest, h.zerosCount);
    } else {
      Bits.BeyondDigest(digest, h.zerosCount);
    }
  }

  /** `FromBytes`: split on ':' into exactly seven parts, then decode them. */
  function FromBytes(b: string): (r: Result<HashCash>)
    ensures |Split(b, Separator)| != FieldCount ==> r == Err(BadFieldCount)
    ensures |Split(b, Separator)| == FieldCount ==> r == FromFields(Split(b, Separator))
    ensures r.Ok? ==> var parts := Split(b, Separator);
      && |parts| == FieldCount
      && r.value.ip == parts[3]
      && Separator !in r.value.ip
      && Decimal.IsInt64(r.value.version)
      && Decimal.IsInt64(r.value.zerosCount)
      && Decimal.IsInt64(r.value.counter)
      && Calendar.DayStart(r.value.dateUnix) == r.value.dateUnix
      && Calendar.InYearWindow(r.value.dateUnix)
  {
    var parts := Split(b, Separator);
    if |parts| != FieldCount then Err(BadFieldCount) else FromFields(parts)
  }

  /** The seven parts in order: the version, the difficulty, the date, the
      nonce and the counter are parsed in that order, failing at the first
      that does not parse. The fifth part is never looked at. */
  function FromFields(parts: seq<string>): (r: Result<HashCash>)
    requires |parts| == FieldCount
    ensures r.Ok? <==>
      && Decimal.ParseInt(parts[0]).Some?
      && Decimal.ParseInt(parts[1]).Some?
      && Calendar.ParseDate(parts[2]).Some?
      && Base64.Decode(parts[5]).Some?
      && DecodeCounter(parts[6]).Some?
    ensures r.Ok? ==>
      && r.value.version == Decimal.ParseInt(parts[0]).value
      && r.value.zerosCount == Decimal.ParseInt(parts[1]).value
      && r.value.dateUnix == Calendar.ParseDate(parts[2]).value
      && r.value.ip == parts[3]
      && r.value.rand == Base64.Decode(parts[5]).value
      && r.value.counter == DecodeCounter(parts[6]).value
    ensures Decimal.ParseInt(parts[0]).None? ==> r == Err(BadVersion)
    ensures Decimal.ParseInt(parts[0]).Some? && Decimal.ParseInt(parts[1]).None? ==> r == Err(BadZerosCount)
    ensures (Decimal.ParseInt(parts[0]).Some? && Decimal.ParseInt(parts[1]).Some?
             && Calendar.ParseDate(parts[2]).None?)
            ==> r == Err(BadDate)
    ensures (Decimal.ParseInt(parts[0]).Some? && Decimal.ParseInt(parts[1]).Some?
             && Calendar.ParseDate(parts[2]).Some? && Base64.Decode(parts[5]).None?)
            ==> r == Err(BadRand)
    ensures (Decimal.ParseInt(parts[0]).Some? && Decimal.ParseInt(parts[1]).Some?
             && Calendar.ParseDate(parts[2]).Some? && Base64.Decode(parts[5]).Some?
             && DecodeCounter(parts[6]).None?)
            ==> r == Err(BadCounter)
    ensures r.Ok? ==>
      && Decimal.IsInt64(r.value.version)
      && Decimal.IsInt64(r.value.zerosCount)
      && Decimal.IsInt64(r.value.counter)
      && Calendar.DayStart(r.value.dateUnix) == r.value.dateUnix
      && Calendar.InYearWindow(r.value.dateUnix)
  {
    var version :- Decimal.ParseInt(parts[0]).OrFail(BadVersion);
    var zerosCount :- Decimal.ParseInt(parts[1]).OrFail(BadZerosCount);
    var at :- Calendar.ParseDate(parts[2]).OrFail(BadDate);
    var rand :- Base64.Decode(parts[5]).OrFail(BadRand);
    var counter :- DecodeCounter(parts[6]).OrFail(BadCounter);
    Calendar.FormatParseDate(parts[2]);
    Ok(HashCash(version, zerosCount, at, counter, parts[3], rand))
  }

  /** Records `ToBytes` can write so that `FromBytes` reads them back: no ':'
      in the address (an IPv6 address breaks the seven-field layout), 64-bit
      integers, and a date whose year a two-digit field can name. */
  predicate Encodable(h: HashCash) {
    && Separator !in h.ip
    && Decimal.IsInt64(h.version)
    && Decimal.IsInt64(h.zerosCount)
    && Decimal.IsInt64(h.counter)
    && Calendar.InYearWindow(h.dateUnix)
  }

  /** The record as it comes back from the wire: the date cut to the start of
      its day, everything else unchanged. */
  function DayTruncated(h: HashCash): HashCash {
    h.(dateUnix := Calendar.DayStart(h.dateUnix))
  }

  lemma FieldsFree(h: HashCash)
    requires Separator !in h.ip
    ensures forall i :: 0 <= i < FieldCount ==> Separator !in Fields(h)[i]
  {
    var f := Fields(h);
    forall i, k | 0 <= i < FieldCount && 0 <= k < |f[i]| ensures f[i][k] != Separator {
      if i == 0 || i == 1 {
        assert Decimal.IsDigit(f[i][k]) || f[i][k] == '-';
      } else if i == 2 {
        assert Decimal.IsDigit(f[i][k]);
      } else if i == 5 {
        Base64.EncodeFree(h.rand);
      } else if i == 6 {
        Base64.EncodeFree(DecimalBytes(Decimal.Format(h.counter)));
      }
    }
  }

  /** The wire text is a single line when the address is. */
  lemma ToBytesOneLine(h: HashCash)
    requires '\n' !in h.ip
    ensures '\n' !in ToBytes(h)
  {
    var f := Fields(h);
    forall i, k | 0 <= i < FieldCount && 0 <= k < |f[i]| ensures f[i][k] != '\n' {
      if i == 0 || i == 1 {
        assert Decimal.IsDigit(f[i][k]) || f[i][k] == '-';
      } else if i == 2 {
        assert Decimal.IsDigit(f[i][k]);
      } else if i == 5 {
        Base64.EncodeFree(h.rand);
      } else if i == 6 {
        Base64.EncodeFree(DecimalBytes(Decimal.Format(h.counter)));
      }
    }
    JoinFree(f, Separator, '\n');
  }

  /** Round trip: decoding an encoded record gives back every field, the
      date cut to the start of its day. */
  lemma FromBytesToBytes(h: HashCash)
    requires Encodable(h)
    ensures FromBytes(ToBytes(h)) == Ok(DayTruncated(h))
  {
    FieldsFree(h);
    SplitJoin(Fields(h), Separator);
    Decimal.ParseFormat(h.version);
    Decimal.ParseFormat(h.zerosCount);
    Calendar.ParseFormatDate(h.dateUnix);
    Base64.DecodeEncode(h.rand);
  }

  /** The same holds for the line as read from the stream, with its '\n'
      still on the last field: the base64 decoder skips it. */
  lemma FromBytesToBytesLine(h: HashCash)
    requires Encodable(h)
    ensures FromBytes(ToBytes(h) + "\n") == Ok(DayTruncated(h))
  {
    var f := Fields(h);
    SplitLine(h);
    Decimal.ParseFormat(h.version);
    Decimal.ParseFormat(h.zerosCount);
    Calendar.ParseFormatDate(h.dateUnix);
    Base64.DecodeEncode(h.rand);
    CounterLine(h.counter);
  }

  /** The counter field still decodes with the line's '\n' after it. */
  lemma CounterLine(n: int)
    requires Decimal.IsInt64(n)
    ensures DecodeCounter(EncodeCounter(n) + "\n") == Some(n)
  {
    Base64.DecodeIgnoresNewline(EncodeCounter(n));
  }

  /** The line's '\n' ends up in the last field. */
  lemma SplitLine(h: HashCash)
    requires Separator !in h.ip
    ensures Split(ToBytes(h) + "\n", Separator) == Fields(h)[..6] + [Fields(h)[6] + "\n"]
  {
    var f := Fields(h);
    var g := f[..6] + [f[6] + "\n"];
    FieldsFree(h);
    assert forall i :: 0 <= i < FieldCount ==> Separator !in g[i] by {
      forall i | 0 <= i < FieldCount ensures Separator !in g[i] {
        if i < 6 {
          assert g[i] == f[i];
        } else {
          assert Separator !in f[6];
          assert g[6] == f[6] + "\n";
        }
      }
    }
    JoinAppendLast(f, "\n", Separator);
    SplitJoin(g, Separator);
  }

  /** Text appended to a joined list lands in its last part. */
  lemma {:induction false} JoinAppendLast(parts: seq<string>, t: string, sep: char)
    requires |parts| >= 1
    ensures Join(parts, sep) + t == Join(parts[..|parts| - 1] + [parts[|parts| - 1] + t], sep)
    decreases |parts|
  {
    var n := |parts|;
    var g := parts[..n - 1] + [parts[n - 1] + t];
    if n > 1 {
      JoinAppendLast(parts[1..], t, sep);
      assert g[1..] == parts[1..][..n - 2] + [parts[1..][n - 2] + t];
      assert g[0] == parts[0];
    }
  }

  /** The digest survives the wire: the record the receiver decodes from an
      encodable record's text has the digest the sender computed, the time of
      day being lost in both. */
  lemma DigestSurvivesWire(h: HashCash, sha1: Hasher)
    requires Encodable(h)
    ensures FromBytes(ToBytes(h)).Ok?
    ensures Sha1Hash(FromBytes(ToBytes(h)).value, sha1) == Sha1Hash(h, sha1)
  {
    FromBytesToBytes(h);
    Calendar.FormatDayStart(h.dateUnix);
    assert Fields(DayTruncated(h)) == Fields(h);
  }

  /** A record whose address contains ':' does not survive its own encoding:
      the extra separators make more than seven parts. */
  lemma ColonAddressBreaksDecoding(h: HashCash)
    requires Separator in h.ip
    ensures FromBytes(ToBytes(h)) == Err(BadFieldCount)
  {
    var f := Fields(h);
    assert ToBytes(h) == Join(f, Separator);
    SeparatorInPart(f, 3, Separator);
  }

  /** A part holding the separator makes the join split into more parts. */
  lemma SeparatorInPart(parts: seq<string>, k: int, sep: char)
    requires 0 <= k < |parts| && sep in parts[k]
    ensures |Split(Join(parts, sep), sep)| > |parts|
  {
    JoinCount(parts, sep);
    assert multiset(parts[k])[sep] >= 1;
    SplitCount(Join(parts, sep), sep);
  }

  /** The separators in a joined list: at least one between each pair of
      neighbours, plus those inside any single part. */
  lemma {:induction false} JoinCount(parts: seq<string>, sep: char)
    requires |parts| >= 1
    ensures forall k :: 0 <= k < |parts| ==>
      multiset(Join(parts, sep))[sep] >= |parts| - 1 + multiset(parts[k])[sep]
    decreases |parts|
  {
    if |parts| > 1 {
      JoinCount(parts[1..], sep);
      var rest := Join(parts[1..], sep);
      assert multiset(Join(parts, sep)) == multiset(parts[0]) + multiset([sep]) + multiset(rest);
      forall k | 0 <= k < |parts|
        ensures multiset(Join(parts, sep))[sep] >= |parts| - 1 + multiset(parts[k])[sep]
      {
        if k > 0 {
          assert parts[k] == parts[1..][k - 1];
        } else {
          assert multiset(rest)[sep] >= |parts| - 2 + multiset(parts[1..][0])[sep];
        }
      }
    }
  }

  /** A string splits into one more part than it has separators. */
  lemma {:induction false} SplitCount(s: string, sep: char)
    ensures |Split(s, sep)| == multiset(s)[sep] + 1
    decreases |s|
  {
    if |s| > 0 {
      SplitCount(s[1..], sep);
      assert s == [s[0]] + s[1..];
      assert multiset(s) == multiset([s[0]]) + multiset(s[1..]);
    }
  }

  /** The fifth field is never inspected: replacing it by any text without a
      separator leaves the decoded record (or the error) unchanged. */
  lemma ExtensionIgnored(b: string, ext: string)
    requires |Split(b, Separator)| == FieldCount
    requires Separator !in ext
    ensures FromBytes(Join(Split(b, Separator)[4 := ext], Separator)) == FromBytes(b)
  {
    var parts := Split(b, Separator);
    var parts' := parts[4 := ext];
    assert forall i :: 0 <= i < FieldCount ==> Separator !in parts'[i];
    SplitJoin(parts', Separator);
    FieldsIgnoreExtension(parts, ext);
  }

  lemma FieldsIgnoreExtension(parts: seq<string>, ext: string)
    requires |parts| == FieldCount
    ensures FromFields(parts[4 := ext]) == FromFields(parts)
  {
    var parts' := parts[4 := ext];
    assert parts'[0] == parts[0] && parts'[1] == parts[1] && parts'[2] == parts[2];
    assert parts'[3] == parts[3] && parts'[5] == parts[5] && parts'[6] == parts[6];
  }
}

=== FILE: receiver.dfy ===
/** The server side: issuing a challenge bound to the client's address,
    verifying the returned solution, and the line-oriented exchange that
    connects the two. The two repositories are sets: registered addresses
    (insertion is idempotent, `on conflict do nothing`) and spent digests
    (insertion reports whether the digest was new). Which repository call
    fails, if any, is a parameter; so are the clock, the ttl and the nonce. */
module Receiver {
  import opened Outcomes
  import opened Protocol
  import Text
  import Bits

  /** Go's `time.Time` and `time.Duration` count nanoseconds. */
  const NanosPerSecond: int := 1_000_000_000

  /** The contents of the two repositories. */
  datatype Store = Store(ips: set<string>, hashes: set<seq<bv8>>)

  /** Which calls fail during one session: the three repository calls and
      the write of the challenge line. */
  datatype Faults = Faults(insertIp: bool, hasIp: bool, insertHash: bool, write: bool)

  const NoFaults: Faults := Faults(false, false, false, false)

  /** The difficulty the receiver issues and the ttl, in nanoseconds. */
  datatype Config = Config(zerosCount: int, ttl: int)

  /** A result together with the repositories after the call. */
  datatype Step<T> = Step(result: T, store: Store)

  /** `IPsRepository.InsertIP`: registering an address already present is
      not an error and changes nothing. */
  function InsertIp(store: Store, ip: string, fails: bool): (r: Step<Outcome>)
    ensures r.result.Pass? <==> !fails
    ensures r.result.Fail? ==> r.result.error == StoreFailure && r.store == store
    ensures r.result.Pass? ==> r.store.ips == store.ips + {ip}
    ensures r.store.hashes == store.hashes
  {
    if fails then Step(Fail(StoreFailure), store)
    else Step(Pass, store.(ips := store.ips + {ip}))
  }

  lemma InsertIpIdempotent(store: Store, ip: string)
    ensures InsertIp(InsertIp(store, ip, false).store, ip, false) == InsertIp(store, ip, false)
  {
    var once := InsertIp(store, ip, false).store;
    assert once.ips + {ip} == once.ips;
  }

  /** `IPsRepository.HasIP`. */
  function HasIp(store: Store, ip: string, fails: bool): (r: Result<bool>)
    ensures r.Err? <==> fails
    ensures r.Err? ==> r.error == StoreFailure
    ensures r.Ok? ==> (r.value <==> ip in store.ips)
  {
    if fails then Err(StoreFailure) else Ok(ip in store.ips)
  }

  /** `HashesRepository.InsertHash`: `true` for a fresh insert, `false` when
      the digest is already present (a unique-key violation). */
  function InsertHash(store: Store, hash: seq<bv8>, fails: bool): (r: Step<Result<bool>>)
    ensures r.result.Err? <==> fails
    ensures r.result.Err? ==> r.result.error == StoreFailure
    ensures r.result.Ok? ==> (r.result.value <==> hash !in store.hashes)
    ensures hash in r.store.hashes || r.result.Err?
    ensures r.store.hashes == store.hashes || r.store.hashes == store.hashes + {hash}
    ensures r.store.hashes != store.hashes ==> r.result == Ok(true)
    ensures r.store.ips == store.ips
  {
    if fails then Step(Err(StoreFailure), store)
    else if hash in store.hashes then Step(Ok(false), store)
    else Step(Ok(true), store.(hashes := store.hashes + {hash}))
  }

  /** The challenge issued to `ip` at instant `now` (nanoseconds) with the
      nonce `rand`: version 1, the configured difficulty, the issue time in
      whole seconds, counter 0. */
  function Challenge(cfg: Config, ip: string, now: int, rand: seq<bv8>): (h: HashCash)
    ensures h.dateUnix * NanosPerSecond <= now < h.dateUnix * NanosPerSecond + NanosPerSecond
  {
    HashCash(1, cfg.zerosCount, now / NanosPerSecond, 0, ip, rand)
  }

  /** `Receiver.ChooseChallenge`: register the address, then build a fresh
      record. A failed registration yields no challenge. */
  function ChooseChallenge(cfg: Config, store: Store, faults: Faults, ip: string, now: int, rand: seq<bv8>)
    : (r: Step<Result<HashCash>>)
    ensures r.result.Ok? <==> !faults.insertIp
    ensures r.result.Err? ==> r.result.error == StoreFailure && r.store == store
    ensures r.result.Ok? ==>
      && r.store == store.(ips := store.ips + {ip})
      && var h := r.result.value;
      && h.version == 1 && h.counter == 0 && h.ip == ip && h.rand == rand
      && h.zerosCount == cfg.zerosCount
      && h.dateUnix * NanosPerSecond <= now < (h.dateUnix + 1) * NanosPerSecond
  {
    var ins := InsertIp(store, ip, faults.insertIp);
    if ins.result.Fail? then Step(Err(ins.result.error), ins.store)
    else Step(Ok(Challenge(cfg, ip, now, rand)), ins.store)
  }

  /** The expiry test `now.Sub(time.Unix(DateUnix, 0)) > ttl`. */
  predicate IsExpired(cfg: Config, h: HashCash, now: int) {
    now - h.dateUnix * NanosPerSecond > cfg.ttl
  }

  /** `Receiver.VerifyChallenge`: five checks in a fixed order, stopping at
      the first failure: proof of work (with the record's own difficulty),
      expiry, address equality, registration, and the insertion of the
      digest, which is the only step that changes a repository. */
  function VerifyChallenge(cfg: Config, store: Store, faults: Faults, sha1: Hasher, h: HashCash, ip: string, now: int)
    : (r: Step<Outcome>)
    ensures r.store.ips == store.ips
    ensures r.result.Pass? <==>
      && IsLeadingBitsZero(h, sha1) == Some(true)
      && !IsExpired(cfg, h, now)
      && h.ip == ip
      && !faults.hasIp && ip in store.ips
      && !faults.insertHash && Sha1Hash(h, sha1) !in store.hashes
    ensures r.result.Pass? ==> r.store.hashes == store.hashes + {Sha1Hash(h, sha1)}
    ensures r.result.Fail? ==> r.store.hashes == store.hashes
    ensures IsLeadingBitsZero(h, sha1) == None ==> r.result == Fail(DigestIndexOutOfRange)
    ensures IsLeadingBitsZero(h, sha1) == Some(false) ==> r.result == Fail(InvalidHashCash)
    ensures IsLeadingBitsZero(h, sha1) == Some(true) ==>
      && (IsExpired(cfg, h, now) ==> r.result == Fail(DateExpired))
      && (!IsExpired(cfg, h, now) && h.ip != ip ==> r.result == Fail(IpMismatch))
      && (!IsExpired(cfg, h, now) && h.ip == ip ==>
            && (faults.hasIp ==> r.result == Fail(StoreFailure))
            && (!faults.hasIp && ip !in store.ips ==> r.result == Fail(IpNotRegistered))
            && (!faults.hasIp && ip in store.ips && faults.insertHash ==> r.result == Fail(StoreFailure))
            && ((!faults.hasIp && ip in store.ips && !faults.insertHash && Sha1Hash(h, sha1) in store.hashes)
                  ==> r.result == Fail(HashReused)))
  {
    match IsLeadingBitsZero(h, sha1)
    case None => Step(Fail(DigestIndexOutOfRange), store)
    case Some(false) => Step(Fail(InvalidHashCash), store)
    case Some(true) =>
      if IsExpired(cfg, h, now) then Step(Fail(DateExpired), store)
      else if h.ip != ip then Step(Fail(IpMismatch), store)
      else match HasIp(store, h.ip, faults.hasIp)
        case Err(e) => Step(Fail(e), store)
        case Ok(false) => Step(Fail(IpNotRegistered), store)
        case Ok(true) =>
          var ins := InsertHash(store, Sha1Hash(h, sha1), faults.insertHash);
          match ins.result
          case Err(e) => Step(Fail(e), ins.store)
          case Ok(false) => Step(Fail(HashReused), ins.store)
          case Ok(true) => Step(Pass, ins.store)
  }

  /** Replay: once a record has been accepted, presenting it again fails,
      whatever the clock, the faults or the address. */
  lemma ReplayRejected(cfg: Config, store: Store, faults: Faults, faults': Faults, sha1: Hasher,
                       h: HashCash, ip: string, now: int, now': int)
    requires VerifyChallenge(cfg, store, faults, sha1, h, ip, now).result == Pass
    ensures var again := VerifyChallenge(cfg, VerifyChallenge(cfg, store, faults, sha1, h, ip, now).store,
                                         faults', sha1, h, ip, now');
      && again.result.Fail?
      && (!IsExpired(cfg, h, now') && !faults'.hasIp && !faults'.insertHash ==> again.result == Fail(HashReused))
  {
  }

  /** The ttl boundary is inclusive: an age of exactly `ttl` passes the
      expiry check and one nanosecond more fails it. */
  lemma ExpiryBoundary(cfg: Config, store: Store, faults: Faults, sha1: Hasher, h: HashCash, ip: string)
    requires IsLeadingBitsZero(h, sha1) == Some(true)
    ensures VerifyChallenge(cfg, store, faults, sha1, h, ip, h.dateUnix * NanosPerSecond + cfg.ttl).result
            != Fail(DateExpired)
    ensures VerifyChallenge(cfg, store, faults, sha1, h, ip, h.dateUnix * NanosPerSecond + cfg.ttl + 1).result
            == Fail(DateExpired)
  {
  }

  /** A record dated in the future is never rejected as expired when the ttl
      is not negative. */
  lemma FutureDateNotExpired(cfg: Config, store: Store, faults: Faults, sha1: Hasher, h: HashCash, ip: string, now: int)
    requires cfg.ttl >= 0
    requires now < h.dateUnix * NanosPerSecond
    ensures VerifyChallenge(cfg, store, faults, sha1, h, ip, now).result != Fail(DateExpired)
  {
  }

  /** The difficulty that counts is the one the client wrote in the record:
      the configured difficulty plays no part in verification, and a record
      claiming difficulty 0 (or less) passes the proof-of-work check with any
      digest. */
  lemma ClientChoosesDifficulty(cfg: Config, cfg': Config, store: Store, faults: Faults, sha1: Hasher,
                                h: HashCash, ip: string, now: int)
    requires cfg.ttl == cfg'.ttl
    ensures VerifyChallenge(cfg, store, faults, sha1, h, ip, now)
         == VerifyChallenge(cfg', store, faults, sha1, h, ip, now)
    ensures h.zerosCount <= 0 ==> IsLeadingBitsZero(h, sha1) == Some(true)
  {
    if h.zerosCount <= 0 {
      Bits.IsLeadingBitsZeroCorrect(Sha1Hash(h, sha1), h.zerosCount);
    }
  }

  /** What acceptance of `h` means: it meets its own difficulty, is not
      expired, names the connection's registered address, and its digest was
      not spent before and is spent afterwards (`after` is the store
      afterwards). */
  predicate Accepted(cfg: Config, store: Store, sha1: Hasher, h: HashCash, ip: string, now: int, after: Store) {
    && IsLeadingBitsZero(h, sha1) == Some(true)
    && !IsExpired(cfg, h, now)
    && h.ip == ip
    && ip in store.ips
    && Sha1Hash(h, sha1) !in store.hashes
    && after == Store(store.ips, store.hashes + {Sha1Hash(h, sha1)})
  }

  /** The record on the first line of `stream`, as `FromBytes` decodes it. */
  function AnswerRecord(stream: string): Result<HashCash> {
    match Text.ReadLine(stream)
    case Err(e) => Err(e)
    case Ok((line, _)) => FromBytes(line)
  }

  /** A session's result: the verdict, the repositories afterwards, and
      everything written to the client. */
  datatype Session = Session(outcome: Outcome, store: Store, output: string)

  /** `Receiver.Auth` over the whole input stream: discard the first line,
      then issue the challenge and check the answer. `nowIssue` and
      `nowVerify` are the two clock readings. */
  function Auth(cfg: Config, store: Store, faults: Faults, sha1: Hasher, ip: string,
                nowIssue: int, nowVerify: int, rand: seq<bv8>, input: string): (r: Session)
    ensures r.output == "" || r.output == ToBytes(Challenge(cfg, ip, nowIssue, rand)) + "\n"
    ensures '\n' !in input ==> r == Session(Fail(ReadFailure), store, "")
    ensures r.store.ips == store.ips || r.store.ips == store.ips + {ip}
    ensures r.store.hashes == store.hashes || r.outcome == Pass
    ensures r.outcome == Pass ==>
      && r.output == ToBytes(Challenge(cfg, ip, nowIssue, rand)) + "\n"
      && ip in r.store.ips
    ensures r.outcome == Pass ==>
      && Text.ReadLine(input).Ok?
      && var answer := AnswerRecord(Text.ReadLine(input).value.1);
      && answer.Ok?
      && Accepted(cfg, store.(ips := store.ips + {ip}), sha1, answer.value, ip, nowVerify, r.store)
    ensures Text.ReadLine(input).Ok? && faults.insertIp ==> r == Session(Fail(StoreFailure), store, "")
    ensures Text.ReadLine(input).Ok? && !faults.insertIp && faults.write ==>
      r == Session(Fail(WriteFailure), store.(ips := store.ips + {ip}), "")
    ensures (Text.ReadLine(input).Ok? && !faults.insertIp && !faults.write
      && AnswerRecord(Text.ReadLine(input).value.1).Ok?) ==>
      r.outcome == VerifyChallenge(cfg, store.(ips := store.ips + {ip}), faults, sha1,
                                   AnswerRecord(Text.ReadLine(input).value.1).value, ip, nowVerify).result
  {
    match Text.ReadLine(input)
    case Err(e) => Session(Fail(e), store, "")
    case Ok((_, afterGreeting)) => Respond(cfg, store, faults, sha1, ip, nowIssue, nowVerify, rand, afterGreeting)
  }

  /** `Receiver.Auth` after the first line: issue and write the challenge,
      read the answer line, decode it (with its trailing '\n'), and verify it. */
  function Respond(cfg: Config, store: Store, faults: Faults, sha1: Hasher, ip: string,
                   nowIssue: int, nowVerify: int, rand: seq<bv8>, afterGreeting: string): (r: Session)
    ensures r.output == "" || r.output == ToBytes(Challenge(cfg, ip, nowIssue, rand)) + "\n"
    ensures r.output == "" <==> faults.insertIp || faults.write
    ensures r.store.ips == store.ips || r.store.ips == store.ips + {ip}
    ensures r.store.hashes == store.hashes || r.outcome == Pass
    ensures r.outcome == Pass ==>
      && r.output == ToBytes(Challenge(cfg, ip, nowIssue, rand)) + "\n"
      && ip in r.store.ips
    ensures r.outcome == Pass ==>
      && AnswerRecord(afterGreeting).Ok?
      && Accepted(cfg, store.(ips := store.ips + {ip}), sha1, AnswerRecord(afterGreeting).value, ip, nowVerify, r.store)
    ensures faults.insertIp ==> r == Session(Fail(StoreFailure), store, "")
    ensures !faults.insertIp && faults.write ==> r == Session(Fail(WriteFailure), store.(ips := store.ips + {ip}), "")
    ensures !faults.insertIp && !faults.write && AnswerRecord(afterGreeting).Ok? ==>
      r.outcome == VerifyChallenge(cfg, store.(ips := store.ips + {ip}), faults, sha1,
                                   AnswerRecord(afterGreeting).value, ip, nowVerify).result
  {
    var issued := ChooseChallenge(cfg, store, faults, ip, nowIssue, rand);
    match issued.result
    case Err(e) => Session(Fail(e), issued.store, "")
    case Ok(challenge) =>
      if faults.write then Session(Fail(WriteFailure), issued.store, "")
      else
        var written := ToBytes(challenge) + "\n";
        var answered := CheckAnswer(cfg, issued.store, faults, sha1, ip, nowVerify, afterGreeting);
        Session(answered.result, answered.store, written)
  }

  /** The last three steps of `Receiver.Auth`: read the answer line, decode
      it, verify it. */
  function CheckAnswer(cfg: Config, store: Store, faults: Faults, sha1: Hasher, ip: string,
                       now: int, stream: string): (r: Step<Outcome>)
    ensures r.store.ips == store.ips
    ensures r.result.Fail? ==> r.store == store
    ensures r.result.Pass? ==> Text.ReadLine(stream).Ok? && FromBytes(Text.ReadLine(stream).value.0).Ok?
    ensures Text.ReadLine(stream).Err? ==> r.result == Fail(ReadFailure)
    ensures Text.ReadLine(stream).Ok? && FromBytes(Text.ReadLine(stream).value.0).Err?
      ==> r.result == Fail(FromBytes(Text.ReadLine(stream).value.0).error)
    ensures r.result.Pass? ==>
      && AnswerRecord(stream).Ok?
      && Accepted(cfg, store, sha1, AnswerRecord(stream).value, ip, now, r.store)
    ensures AnswerRecord(stream).Ok? ==>
      r == VerifyChallenge(cfg, store, faults, sha1, AnswerRecord(stream).value, ip, now)
  {
    match Text.ReadLine(stream)
    case Err(e) => Step(Fail(e), store)
    case Ok((answer, _)) =>
      match FromBytes(answer)
      case Err(e) => Step(Fail(e), store)
      case Ok(h) => VerifyChallenge(cfg, store, faults, sha1, h, ip, now)
  }

  /** The content of the first line is ignored. */
  lemma AuthIgnoresGreeting(cfg: Config, store: Store, faults: Faults, sha1: Hasher, ip: string,
                            nowIssue: int, nowVerify: int, rand: seq<bv8>, g1: string, g2: string, rest: string)
    requires '\n' !in g1 && '\n' !in g2
    ensures Auth(cfg, store, faults, sha1, ip, nowIssue, nowVerify, rand, g1 + "\n" + rest)
         == Auth(cfg, store, faults, sha1, ip, nowIssue, nowVerify, rand, g2 + "\n" + rest)
  {
    Text.ReadLineOf(g1, rest);
    Text.ReadLineOf(g2, rest);
    assert Auth(cfg, store, faults, sha1, ip, nowIssue, nowVerify, rand, g1 + "\n" + rest)
        == Respond(cfg, store, faults, sha1, ip, nowIssue, nowVerify, rand, rest);
  }

  /** Failures before verification: a missing answer line or one that does
      not decode ends the session with that error, after the address was
      registered and the challenge written, and with no digest spent. */
  lemma AuthFailsBeforeVerify(cfg: Config, store: Store, faults: Faults, sha1: Hasher, ip: string,
                              nowIssue: int, nowVerify: int, rand: seq<bv8>, greeting: string, rest: string)
    requires '\n' !in greeting
    requires !faults.insertIp && !faults.write
    requires Text.ReadLine(rest).Err? || FromBytes(Text.ReadLine(rest).value.0).Err?
    ensures var r := Auth(cfg, store, faults, sha1, ip, nowIssue, nowVerify, rand, greeting + "\n" + rest);
      && r.outcome == Fail(if Text.ReadLine(rest).Err? then ReadFailure else FromBytes(Text.ReadLine(rest).value.0).error)
      && r.store == store.(ips := store.ips + {ip})
      && r.output == ToBytes(Challenge(cfg, ip, nowIssue, rand)) + "\n"
  {
    Text.ReadLineOf(greeting, rest);
  }
}

=== FILE: sender.dfy ===
/** The client side: greet the receiver, read and decode the challenge,
    search for a counter that meets the challenge's own difficulty, send the
    solved record back and read the quote. */
module Sender {
  import opened Outcomes
  import opened Protocol
  import Text
  import Bits

  /** The greeting written before anything is read; its content is never
      looked at by the receiver. */
  const Greeting: string := "hi\n"

  /** `sender.Sender`'s settings. `zerosCount` is kept because the Go struct
      carries it, but the search never consults it. */
  datatype Config = Config(zerosCount: int, maxCounter: int)

  /** Which of the two writes fail: the greeting and the solution line. */
  datatype Faults = Faults(greeting: bool, solution: bool)

  const NoFaults: Faults := Faults(false, false)

  /** The proof-of-work test on `h` with its counter set to `c`. */
  function Attempt(h: HashCash, c: int, sha1: Hasher): Option<bool> {
    IsLeadingBitsZero(h.(counter := c), sha1)
  }

  /** The counter search of `GetQuote` from counter `c` upward: stop with an
      error once the counter passes `maxCounter`, stop with the record as soon
      as it meets its own difficulty. A Go panic in the test is
      `DigestIndexOutOfRange`. */
  function SearchFrom(h: HashCash, c: int, maxCounter: int, sha1: Hasher): (r: Result<HashCash>)
    ensures c > maxCounter ==> r == Err(NoSolution)
    ensures r.Ok? ==>
      && r.value == h.(counter := r.value.counter)
      && c <= r.value.counter <= maxCounter
      && Attempt(h, r.value.counter, sha1) == Some(true)
      && forall k :: c <= k < r.value.counter ==> Attempt(h, k, sha1) == Some(false)
    ensures r.Err? ==> r.error == NoSolution || r.error == DigestIndexOutOfRange
    ensures r == Err(NoSolution) ==>
      forall k :: c <= k <= maxCounter ==> Attempt(h, k, sha1) == Some(false)
    ensures r == Err(DigestIndexOutOfRange) ==> h.zerosCount > 8 * 20
    decreases maxCounter + 1 - c
  {
    if c > maxCounter then Err(NoSolution)
    else
      match Attempt(h, c, sha1)
      case None =>
        PanicOnlyBeyondDigest(h, c, sha1);
        Err(DigestIndexOutOfRange)
      case Some(true) => Ok(h.(counter := c))
      case Some(false) =>
        var r := SearchFrom(h, c + 1, maxCounter, sha1);
        if r.Ok? then
          FailuresFrom(h, c, r.value.counter, sha1);
          r
        else if r == Err(NoSolution) then
          FailuresFrom(h, c, maxCounter + 1, sha1);
          r
        else r
  }

  /** A failing counter extends a run of failing counters just above it. */
  lemma FailuresFrom(h: HashCash, c: int, upto: int, sha1: Hasher)
    requires Attempt(h, c, sha1) == Some(false)
    requires forall k :: c + 1 <= k < upto ==> Attempt(h, k, sha1) == Some(false)
    ensures forall k :: c <= k < upto ==> Attempt(h, k, sha1) == Some(false)
  {
    forall k | c <= k < upto ensures Attempt(h, k, sha1) == Some(false) {
      if k > c {
        assert c + 1 <= k;
      }
    }
  }

  /** The test panics only on a difficulty beyond the digest's 160 bits. */
  lemma PanicOnlyBeyondDigest(h: HashCash, c: int, sha1: Hasher)
    ensures Attempt(h, c, sha1) == None ==> h.zerosCount > 8 * 20
  {
    if h.zerosCount <= 8 * 20 {
      Bits.IsLeadingBitsZeroCorrect(Sha1Hash(h.(counter := c), sha1), h.zerosCount);
    }
  }

  /** The search starting from the record's own counter. */
  function Search(h: HashCash, maxCounter: int, sha1: Hasher): (r: Result<HashCash>)
    ensures r.Ok? ==> IsLeadingBitsZero(r.value, sha1) == Some(true)
  {
    SearchFrom(h, h.counter, maxCounter, sha1)
  }

  /** The search as the Go loop writes it: test, then increment the record's
      counter in place. */
  method Solve(h: HashCash, maxCounter: int, sha1: Hasher) returns (r: Result<HashCash>)
    ensures r == Search(h, maxCounter, sha1)
  {
    var cur := h;
    while true
      invariant cur == h.(counter := cur.counter)
      invariant SearchFrom(h, cur.counter, maxCounter, sha1) == Search(h, maxCounter, sha1)
      decreases maxCounter + 1 - cur.counter
    {
      if cur.counter > maxCounter {
        return Err(NoSolution);
      }
      var ok := IsLeadingBitsZero(cur, sha1);
      if ok.None? {
        return Err(DigestIndexOutOfRange);
      }
      if ok.value {
        return Ok(cur);
      }
      cur := cur.(counter := cur.counter + 1);
    }
  }

  /** The result of `GetQuote` and everything written to the receiver. */
  datatype Exchange = Exchange(result: Result<string>, output: string)

  /** `Sender.GetQuote` over the whole input stream: write the greeting,
      read the challenge line, then answer it. */
  function GetQuote(cfg: Config, faults: Faults, sha1: Hasher, input: string): (r: Exchange)
    ensures faults.greeting ==> r == Exchange(Err(WriteFailure), "")
    ensures !faults.greeting ==> |r.output| >= |Greeting| && r.output[..|Greeting|] == Greeting
    ensures !faults.greeting && Text.ReadLine(input).Err? ==> r == Exchange(Err(ReadFailure), Greeting)
  {
    if faults.greeting then Exchange(Err(WriteFailure), "")
    else
      match Text.ReadLine(input)
      case Err(e) => Exchange(Err(e), Greeting)
      case Ok((challengeLine, afterChallenge)) =>
        var answered := Answer(cfg, faults, sha1, challengeLine, afterChallenge);
        Exchange(answered.result, Greeting + answered.output)
  }

  /** `Sender.GetQuote` after the challenge line was read: decode it, solve
      it, write the solution line and read the quote. Nothing is written
      unless the challenge decodes and a solution is found, and then exactly
      the solved record's line. */
  function Answer(cfg: Config, faults: Faults, sha1: Hasher, challengeLine: string, afterChallenge: string)
    : (r: Exchange)
    ensures FromBytes(challengeLine).Err? ==> r == Exchange(Err(FromBytes(challengeLine).error), "")
    ensures FromBytes(challengeLine).Ok? ==>
      var solved := Search(FromBytes(challengeLine).value, cfg.maxCounter, sha1);
      && (solved.Err? ==> r == Exchange(Err(solved.error), ""))
      && (solved.Ok? && faults.solution ==> r == Exchange(Err(WriteFailure), ""))
      && (solved.Ok? && !faults.solution ==> r.output == ToBytes(solved.value) + "\n")
    ensures r.result.Ok? ==>
      && r.output != ""
      && Text.ReadLine(afterChallenge).Ok?
      && r.result.value == Text.ReadLine(afterChallenge).value.0
  {
    match FromBytes(challengeLine)
    case Err(e) => Exchange(Err(e), "")
    case Ok(h) =>
      match Search(h, cfg.maxCounter, sha1)
      case Err(e) => Exchange(Err(e), "")
      case Ok(solved) =>
        if faults.solution then Exchange(Err(WriteFailure), "")
        else
          var output := ToBytes(solved) + "\n";
          match Text.ReadLine(afterChallenge)
          case Err(e) => Exchange(Err(e), output)
          case Ok((quote, _)) => Exchange(Ok(quote), output)
  }

  /** Once the challenge line has been read, the exchange is the greeting
      followed by the answer to that line. */
  lemma GetQuoteAfterLine(cfg: Config, sha1: Hasher, line: string, rest: string)
    requires Text.ReadLine(line + rest) == Ok((line, rest))
    ensures var answered := Answer(cfg, NoFaults, sha1, line, rest);
      GetQuote(cfg, NoFaults, sha1, line + rest) == Exchange(answered.result, Greeting + answered.output)
  {
  }

  /** A solved challenge, with the quote line readable after it, is answered
      with the solved record's line and the quote. */
  lemma AnswerSolved(cfg: Config, sha1: Hasher, line: string, rest: string, solved: HashCash)
    requires FromBytes(line).Ok? && Search(FromBytes(line).value, cfg.maxCounter, sha1) == Ok(solved)
    requires Text.ReadLine(rest).Ok?
    ensures Answer(cfg, NoFaults, sha1, line, rest) == Exchange(Ok(Text.ReadLine(rest).value.0), ToBytes(solved) + "\n")
  {
  }

  /** A challenge line that decodes and is solved, followed by a quote line:
      the sender writes the greeting and the solved record's line and returns
      the quote line. */
  lemma SolvedExchange(cfg: Config, sha1: Hasher, line: string, quote: string, more: string, solved: HashCash)
    requires '\n' !in quote
    requires Text.ReadLine(line + (quote + "\n" + more)) == Ok((line, quote + "\n" + more))
    requires FromBytes(line).Ok? && Search(FromBytes(line).value, cfg.maxCounter, sha1) == Ok(solved)
    ensures GetQuote(cfg, NoFaults, sha1, line + quote + "\n" + more)
         == Exchange(Ok(quote + "\n"), Greeting + ToBytes(solved) + "\n")
  {
    var after := quote + "\n" + more;
    Text.ConcatLine(line, quote, more);
    GetQuoteAfterLine(cfg, sha1, line, after);
    Text.ReadLineOf(quote, more);
    AnswerSolved(cfg, sha1, line, after, solved);
    Text.ConcatLine(Greeting, ToBytes(solved), "");
  }

  /** A challenge line that does not decode stops the client after the
      greeting, with the decoder's error and no solution written. */
  lemma DecodeFailureStops(cfg: Config, sha1: Hasher, line: string, rest: string)
    requires '\n' !in line
    requires FromBytes(line + "\n").Err?
    ensures GetQuote(cfg, NoFaults, sha1, line + "\n" + rest)
         == Exchange(Err(FromBytes(line + "\n").error), Greeting)
  {
    Text.ReadLineOf(line, rest);
  }

  /** The difficulty searched for is the challenge's, never the sender's own
      setting. */
  lemma DifficultyFromChallenge(cfg: Config, cfg': Config, faults: Faults, sha1: Hasher, input: string)
    requires cfg.maxCounter == cfg'.maxCounter
    ensures GetQuote(cfg, faults, sha1, input) == GetQuote(cfg', faults, sha1, input)
  {
  }
}

=== FILE: session.dfy ===
/** The two sides run against each other: the receiver's output is the
    sender's input and the other way round. */
module Session {
  import opened Outcomes
  import opened Protocol
  import Text
  import Decimal
  import Calendar
  import Receiver
  import Sender

  /** The challenge line the receiver writes. */
  function ChallengeLine(cfg: Receiver.Config, ip: string, nowIssue: int, rand: seq<bv8>): string {
    ToBytes(Receiver.Challenge(cfg, ip, nowIssue, rand)) + "\n"
  }

  /** What the sender decodes from the challenge line: the issued record with
      its date cut to the start of the day (the date field has day
      granularity). */
  function Received(cfg: Receiver.Config, ip: string, nowIssue: int, rand: seq<bv8>): HashCash {
    DayTruncated(Receiver.Challenge(cfg, ip, nowIssue, rand))
  }

  /** Conditions under which an honest exchange succeeds: an IPv4-style
      address, 64-bit settings, an issue date the two-digit year can name, a
      solution within the sender's bound, an answer arriving within the ttl
      counted from the start of the issue day, and a digest not spent before. */
  predicate Honest(rcfg: Receiver.Config, scfg: Sender.Config, store: Receiver.Store, sha1: Hasher,
                   ip: string, nowIssue: int, nowVerify: int, rand: seq<bv8>)
  {
    var received := Received(rcfg, ip, nowIssue, rand);
    var solved := Solution(rcfg, scfg, sha1, ip, nowIssue, rand);
    && Separator !in ip && '\n' !in ip
    && Decimal.IsInt64(rcfg.zerosCount) && Decimal.IsInt64(scfg.maxCounter)
    && Calendar.InYearWindow(nowIssue / Receiver.NanosPerSecond)
    && solved.Ok?
    && nowVerify - received.dateUnix * Receiver.NanosPerSecond <= rcfg.ttl
    && Sha1Hash(solved.value, sha1) !in store.hashes
  }

  /** The sender reads the receiver's challenge line back as the issued
      record, day-truncated. */
  lemma ChallengeDecodes(cfg: Receiver.Config, ip: string, nowIssue: int, rand: seq<bv8>, rest: string)
    requires Separator !in ip && '\n' !in ip
    requires Decimal.IsInt64(cfg.zerosCount)
    requires Calendar.InYearWindow(nowIssue / Receiver.NanosPerSecond)
    ensures Text.ReadLine(ChallengeLine(cfg, ip, nowIssue, rand) + rest)
         == Ok((ChallengeLine(cfg, ip, nowIssue, rand), rest))
    ensures FromBytes(ChallengeLine(cfg, ip, nowIssue, rand)) == Ok(Received(cfg, ip, nowIssue, rand))
  {
    var challenge := Receiver.Challenge(cfg, ip, nowIssue, rand);
    ToBytesOneLine(challenge);
    Text.ReadLineOf(ToBytes(challenge), rest);
    FromBytesToBytesLine(challenge);
  }

  /** The receiver's first read takes exactly the greeting. */
  lemma GreetingLine(rest: string)
    ensures Text.ReadLine(Sender.Greeting + rest) == Ok((Sender.Greeting, rest))
  {
    assert Sender.Greeting + rest == "hi" + "\n" + rest;
    assert "hi" + "\n" == Sender.Greeting;
    Text.ReadLineOf("hi", rest);
  }

  /** A solution line, behind the greeting, is read back unchanged. */
  lemma AnswerDecodes(solved: HashCash)
    requires Encodable(solved) && '\n' !in solved.ip
    requires Calendar.DayStart(solved.dateUnix) == solved.dateUnix
    ensures Text.ReadLine(Sender.Greeting + ToBytes(solved) + "\n") == Ok((Sender.Greeting, ToBytes(solved) + "\n"))
    ensures Text.ReadLine(ToBytes(solved) + "\n") == Ok((ToBytes(solved) + "\n", ""))
    ensures FromBytes(ToBytes(solved) + "\n") == Ok(solved)
  {
    var text := ToBytes(solved);
    ToBytesOneLine(solved);
    assert Sender.Greeting + text + "\n" == Sender.Greeting + (text + "\n");
    GreetingLine(text + "\n");
    assert text + "\n" + "" == text + "\n";
    Text.ReadLineOf(text, "");
    FromBytesToBytesLine(solved);
    assert DayTruncated(solved) == solved;
  }

  /** The ttl runs from the start of the issue day (UTC), not from the issue
      instant: the date field carries no time of day. The record is already
      up to a day old when it is issued, and an answer is refused as expired,
      however prompt, once the time since midnight exceeds the ttl. */
  lemma ExpiryFromDayStart(cfg: Receiver.Config, ip: string, nowIssue: int, rand: seq<bv8>, nowVerify: int)
    ensures var age := nowIssue - Received(cfg, ip, nowIssue, rand).dateUnix * Receiver.NanosPerSecond;
      && 0 <= age < Calendar.SecondsPerDay * Receiver.NanosPerSecond
      && (nowVerify >= nowIssue && age > cfg.ttl ==> Receiver.IsExpired(cfg, Received(cfg, ip, nowIssue, rand), nowVerify))
  {
    var t := nowIssue / Receiver.NanosPerSecond;
    var d := Calendar.DayStart(t);
    assert Received(cfg, ip, nowIssue, rand).dateUnix == d;
    assert t * Receiver.NanosPerSecond <= nowIssue < (t + 1) * Receiver.NanosPerSecond;
    assert d * Receiver.NanosPerSecond <= t * Receiver.NanosPerSecond;
    assert (t + 1) * Receiver.NanosPerSecond <= (d + Calendar.SecondsPerDay) * Receiver.NanosPerSecond;
  }

  /** The sender's solution to an honest challenge can be encoded and read
      back. */
  lemma SolutionEncodable(rcfg: Receiver.Config, scfg: Sender.Config, store: Receiver.Store, sha1: Hasher,
                          ip: string, nowIssue: int, nowVerify: int, rand: seq<bv8>)
    requires Honest(rcfg, scfg, store, sha1, ip, nowIssue, nowVerify, rand)
    ensures var solved := Solution(rcfg, scfg, sha1, ip, nowIssue, rand).value;
      && Encodable(solved) && solved.ip == ip && '\n' !in solved.ip
      && Calendar.DayStart(solved.dateUnix) == solved.dateUnix
  {
    ChallengeDecodes(rcfg, ip, nowIssue, rand, "");
  }

  /** The solution found for the challenge the receiver issued. */
  function Solution(rcfg: Receiver.Config, scfg: Sender.Config, sha1: Hasher,
                    ip: string, nowIssue: int, rand: seq<bv8>): Result<HashCash>
  {
    Sender.Search(Received(rcfg, ip, nowIssue, rand), scfg.maxCounter, sha1)
  }

  /** The sender's side of an honest exchange: it answers the challenge line
      with its solution and returns the line that follows. */
  lemma ClientSolves(rcfg: Receiver.Config, scfg: Sender.Config, store: Receiver.Store, sha1: Hasher,
                     ip: string, nowIssue: int, nowVerify: int, rand: seq<bv8>, quote: string, more: string)
    requires Honest(rcfg, scfg, store, sha1, ip, nowIssue, nowVerify, rand)
    requires '\n' !in quote
    ensures Sender.GetQuote(scfg, Sender.NoFaults, sha1, ChallengeLine(rcfg, ip, nowIssue, rand) + quote + "\n" + more)
         == Sender.Exchange(Ok(quote + "\n"),
                            Sender.Greeting + ToBytes(Solution(rcfg, scfg, sha1, ip, nowIssue, rand).value) + "\n")
  {
    var after := quote + "\n" + more;
    ChallengeDecodes(rcfg, ip, nowIssue, rand, after);
    Sender.SolvedExchange(scfg, sha1, ChallengeLine(rcfg, ip, nowIssue, rand), quote, more,
                          Solution(rcfg, scfg, sha1, ip, nowIssue, rand).value);
  }

  /** The receiver's side of an honest exchange: the solution line passes
      every check and its digest is spent. */
  lemma ServerAccepts(rcfg: Receiver.Config, scfg: Sender.Config, store: Receiver.Store, sha1: Hasher,
                      ip: string, nowIssue: int, nowVerify: int, rand: seq<bv8>)
    requires Honest(rcfg, scfg, store, sha1, ip, nowIssue, nowVerify, rand)
    ensures var solved := Solution(rcfg, scfg, sha1, ip, nowIssue, rand).value;
      Receiver.Auth(rcfg, store, Receiver.NoFaults, sha1, ip, nowIssue, nowVerify, rand,
                    Sender.Greeting + ToBytes(solved) + "\n")
      == Receiver.Session(Pass, Receiver.Store(store.ips + {ip}, store.hashes + {Sha1Hash(solved, sha1)}),
                          ChallengeLine(rcfg, ip, nowIssue, rand))
  {
    var solved := Solution(rcfg, scfg, sha1, ip, nowIssue, rand).value;
    var registered := store.(ips := store.ips + {ip});
    SolutionEncodable(rcfg, scfg, store, sha1, ip, nowIssue, nowVerify, rand);
    AnswerDecodes(solved);
    assert Receiver.CheckAnswer(rcfg, registered, Receiver.NoFaults, sha1, ip, nowVerify, ToBytes(solved) + "\n")
        == Receiver.VerifyChallenge(rcfg, registered, Receiver.NoFaults, sha1, solved, ip, nowVerify);
    assert Receiver.Auth(rcfg, store, Receiver.NoFaults, sha1, ip, nowIssue, nowVerify, rand,
                         Sender.Greeting + ToBytes(solved) + "\n")
        == Receiver.Respond(rcfg, store, Receiver.NoFaults, sha1, ip, nowIssue, nowVerify, rand, ToBytes(solved) + "\n");
  }

  /** An honest exchange: the sender solves the challenge it was sent, the
      receiver accepts the solution and spends exactly its digest, and the
      sender returns the line that follows. */
  lemma HonestExchange(rcfg: Receiver.Config, scfg: Sender.Config, store: Receiver.Store, sha1: Hasher,
                       ip: string, nowIssue: int, nowVerify: int, rand: seq<bv8>, quote: string, more: string)
    requires Honest(rcfg, scfg, store, sha1, ip, nowIssue, nowVerify, rand)
    requires '\n' !in quote
    ensures
      var solved := Solution(rcfg, scfg, sha1, ip, nowIssue, rand).value;
      var client := Sender.GetQuote(scfg, Sender.NoFaults, sha1,
                                    ChallengeLine(rcfg, ip, nowIssue, rand) + quote + "\n" + more);
      var server := Receiver.Auth(rcfg, store, Receiver.NoFaults, sha1, ip, nowIssue, nowVerify, rand,
                                  client.output);
      && client.output == Sender.Greeting + ToBytes(solved) + "\n"
      && client.result == Ok(quote + "\n")
      && server.output == ChallengeLine(rcfg, ip, nowIssue, rand)
      && server.outcome == Pass
      && server.store == Receiver.Store(store.ips + {ip}, store.hashes + {Sha1Hash(solved, sha1)})
  {
    ClientSolves(rcfg, scfg, store, sha1, ip, nowIssue, nowVerify, rand, quote, more);
    ServerAccepts(rcfg, scfg, store, sha1, ip, nowIssue, nowVerify, rand);
  }

  /** Replay: the same solution sent in a later session, against the
      repositories the accepting session left behind, is refused as reused
      for as long as it has not expired. */
  lemma ReplayedExchange(rcfg: Receiver.Config, scfg: Sender.Config, store: Receiver.Store, sha1: Hasher,
                         ip: string, nowIssue: int, nowVerify: int, rand: seq<bv8>,
                         nowIssue': int, nowVerify': int, rand': seq<bv8>)
    requires Honest(rcfg, scfg, store, sha1, ip, nowIssue, nowVerify, rand)
    requires nowVerify' - Received(rcfg, ip, nowIssue, rand).dateUnix * Receiver.NanosPerSecond <= rcfg.ttl
    ensures
      var solved := Solution(rcfg, scfg, sha1, ip, nowIssue, rand).value;
      var answer := Sender.Greeting + ToBytes(solved) + "\n";
      var first := Receiver.Auth(rcfg, store, Receiver.NoFaults, sha1, ip, nowIssue, nowVerify, rand, answer);
      var again := Receiver.Auth(rcfg, first.store, Receiver.NoFaults, sha1, ip, nowIssue', nowVerify', rand', answer);
      && first.outcome == Pass
      && again.outcome == Fail(HashReused)
      && again.store == first.store
  {
    var solved := Solution(rcfg, scfg, sha1, ip, nowIssue, rand).value;
    ServerAccepts(rcfg, scfg, store, sha1, ip, nowIssue, nowVerify, rand);
    SolutionEncodable(rcfg, scfg, store, sha1, ip, nowIssue, nowVerify, rand);
    AnswerDecodes(solved);
    var after := Receiver.Store(store.ips + {ip}, store.hashes + {Sha1Hash(solved, sha1)});
    assert after.(ips := after.ips + {ip}) == after;
    assert Receiver.CheckAnswer(rcfg, after, Receiver.NoFaults, sha1, ip, nowVerify', ToBytes(solved) + "\n")
        == Receiver.VerifyChallenge(rcfg, after, Receiver.NoFaults, sha1, solved, ip, nowVerify');
    assert Receiver.Auth(rcfg, after, Receiver.NoFaults, sha1, ip, nowIssue', nowVerify', rand',
                         Sender.Greeting + ToBytes(solved) + "\n")
        == Receiver.Respond(rcfg, after, Receiver.NoFaults, sha1, ip, nowIssue', nowVerify', rand', ToBytes(solved) + "\n");
  }
}

=== FILE: text.dfy ===
/** Splitting and joining strings on a separator character, with the
    semantics of Go's `strings.Split` (a separator at either end yields an
    empty part, and the empty string splits into one empty part), and reading
    newline-terminated lines the way `bufio.Reader.ReadString('\n')` does. */
module Text {
  import opened Outcomes

  /** The parts of `s` between occurrences of `sep`, left to right. */
  function Split(s: string, sep: char): (parts: seq<string>)
    ensures |parts| >= 1
    ensures forall i :: 0 <= i < |parts| ==> sep !in parts[i]
    decreases |s|
  {
    if |s| == 0 then [""]
    else
      var rest := Split(s[1..], sep);
      if s[0] == sep then [""] + rest
      else [[s[0]] + rest[0]] + rest[1..]
  }

  /** The parts joined with `sep` between neighbours: the inverse of `Split`.
      The text starts with the first part, and has the separator right after
      it when there are several. */
  function Join(parts: seq<string>, sep: char): (r: string)
    requires |parts| >= 1
    ensures parts[0] <= r
    ensures |parts| > 1 ==> |parts[0]| < |r| && r[|parts[0]|] == sep
  {
    if |parts| == 1 then parts[0]
    else parts[0] + [sep] + Join(parts[1..], sep)
  }

  /** Splitting a joined list gives back the parts, provided no part holds
      the separator. */
  lemma {:induction false} SplitJoin(parts: seq<string>, sep: char)
    requires |parts| >= 1
    requires forall i :: 0 <= i < |parts| ==> sep !in parts[i]
    ensures Split(Join(parts, sep), sep) == parts
    decreases |parts|
  {
    if |parts| == 1 {
      SplitNoSeparator(parts[0], sep);
    } else {
      SplitJoin(parts[1..], sep);
      SplitPrefix(parts[0], Join(parts[1..], sep), sep);
    }
  }

  /** Joining the parts of a split gives back the string. */
  lemma {:induction false} JoinSplit(s: string, sep: char)
    ensures Join(Split(s, sep), sep) == s
    decreases |s|
  {
    if |s| > 0 {
      JoinSplit(s[1..], sep);
      var rest := Split(s[1..], sep);
      if s[0] != sep {
        if |rest| > 1 {
          assert Join([[s[0]] + rest[0]] + rest[1..], sep)
              == [s[0]] + rest[0] + [sep] + Join(rest[1..], sep);
        }
        assert Join(Split(s, sep), sep) == [s[0]] + Join(rest, sep);
      }
    }
  }

  /** A string without the separator is a single part. */
  lemma {:induction false} SplitNoSeparator(s: string, sep: char)
    requires sep !in s
    ensures Split(s, sep) == [s]
    decreases |s|
  {
    if |s| > 0 {
      assert s[1..] + [] == s[1..];
      assert sep !in s[1..] by {
        forall i | 0 <= i < |s[1..]| ensures s[1..][i] != sep {
          assert s[1..][i] == s[i + 1];
        }
      }
      SplitNoSeparator(s[1..], sep);
      assert [s[0]] + s[1..] == s;
    }
  }

  /** A separator-free prefix followed by the separator becomes the first
      part on its own. */
  lemma {:induction false} SplitPrefix(a: string, b: string, sep: char)
    requires sep !in a
    ensures Split(a + [sep] + b, sep) == [a] + Split(b, sep)
    decreases |a|
  {
    if |a| == 0 {
      assert a + [sep] + b == [sep] + b;
      assert ([sep] + b)[1..] == b;
    } else {
      assert sep !in a[1..] by {
        forall i | 0 <= i < |a[1..]| ensures a[1..][i] != sep {
          assert a[1..][i] == a[i + 1];
        }
      }
      SplitPrefix(a[1..], b, sep);
      assert (a + [sep] + b)[1..] == a[1..] + [sep] + b;
      assert [a[0]] + a[1..] == a;
    }
  }

  /** A character that is not the separator and occurs in no part does not
      occur in the joined string. */
  lemma {:induction false} JoinFree(parts: seq<string>, sep: char, c: char)
    requires |parts| >= 1
    requires c != sep
    requires forall i :: 0 <= i < |parts| ==> c !in parts[i]
    ensures c !in Join(parts, sep)
    decreases |parts|
  {
    if |parts| > 1 {
      JoinFree(parts[1..], sep, c);
    }
  }

  /** The index of the first '\n' at or after `i`, if there is one. */
  function NewlineFrom(s: string, i: nat): (k: Option<nat>)
    requires i <= |s|
    ensures k.None? ==> forall j :: i <= j < |s| ==> s[j] != '\n'
    ensures k.Some? ==> i <= k.value < |s| && s[k.value] == '\n'
    ensures k.Some? ==> forall j :: i <= j < k.value ==> s[j] != '\n'
    decreases |s| - i
  {
    if i == |s| then None
    else if s[i] == '\n' then Some(i)
    else NewlineFrom(s, i + 1)
  }

  /** The first line of a stream and what follows it, as read by
      `ReadString('\n')`: the line keeps its terminating newline, and a stream
      that ends before any newline is a read error. */
  function ReadLine(stream: string): (r: Result<(string, string)>)
    ensures r.Err? <==> '\n' !in stream
    ensures r.Err? ==> r.error == ReadFailure
    ensures r.Ok? ==> var (line, rest) := r.value;
      && line + rest == stream
      && |line| >= 1 && line[|line| - 1] == '\n'
      && '\n' !in line[..|line| - 1]
  {
    match NewlineFrom(stream, 0)
    case None => Err(ReadFailure)
    case Some(k) =>
      var line := stream[..k + 1];
      assert line + stream[k + 1..] == stream;
      assert forall j :: 0 <= j < k ==> line[..k][j] == stream[j];
      Ok((line, stream[k + 1..]))
  }

  /** A newline-free line followed by '\n' is read back exactly, whatever
      follows it. */
  lemma ReadLineOf(line: string, rest: string)
    requires '\n' !in line
    ensures ReadLine(line + "\n" + rest) == Ok((line + "\n", rest))
  {
    var s := line + "\n" + rest;
    var n := |line|;
    assert s[n] == '\n';
    assert forall j :: 0 <= j < n ==> s[j] == line[j];
    var k := NewlineFrom(s, 0);
    assert k == Some(n);
    assert s[..n + 1] == line + "\n";
    assert s[n + 1..] == rest;
  }

  /** Regrouping a line and what follows it, as written and as read. */
  lemma ConcatLine(a: string, line: string, rest: string)
    ensures a + line + "\n" + rest == a + (line + "\n" + rest)
    ensures a + (line + "\n") == a + line + "\n"
  {
  }
}
